=== FILE: README.md ===
# nanoppo core in Dafny

A model of the on-policy bookkeeping and arithmetic of the nanoppo trainer for continuous-action PPO. It covers:

- **Rollout buffer.** The bounded FIFO `RolloutBuffer` (a `deque(maxlen=capacity)` of 6-tuples) with push, sampling without replacement, length and clear.
- **Advantage estimators.** `compute_gae` and the one-step TD loop inside `train_networks`.
- **Losses.** The per-sample clipped surrogate `min(ratio*a, clamp(ratio, 1-eps, 1+eps)*a)` and the adaptive value-loss coefficient `vf_coef`.
- **Rollout generator.** `rollout_with_step` as an explicit state machine, one `Step` per `next()`.
- **Training.** `train_networks`: its length precondition, per-iteration sampling and targets, the coefficient trace and the iteration counter. Also the epoch loop of `train`: refill the buffer, train, save a checkpoint on schedule, update the rolling average.
- **Checkpoints.** File naming in `save_checkpoint` and the file `load_checkpoint` opens.
- **Setup helpers.** The scheduler dispatch of `setup_networks` and `rescale_action`.
- **Configuration.** `update_config`.

Modules follow the program's structure:

| file | module | models |
|---|---|---|
| `wrappers.dfy` | `Wrappers` | `Option`, `Result`, and the Python exceptions raised (`ValueError`, `AssertionError`, `KeyError`, `TypeError`, `ZeroDivisionError`) |
| `numeric.dfy` | `Numeric` | `min`, `max`, clamp, sum and mean over reals |
| `rollout_buffer.dfy` | `RolloutBuffer` | the buffer, `zip(*...)` columns, `sample` |
| `advantage.dfy` | `Advantage` | `compute_gae`, the GAE and one-step branches of `train_networks` |
| `surrogate.dfy` | `Surrogate` | clipped surrogate, policy loss, `vf_coef` adaptation |
| `rollout.dfy` | `Rollout` | `rollout_with_step` as `Step`/`Collect` over a `World` of collaborators |
| `training.dfy` | `Training` | `train_networks`, the epoch loop of `train` |
| `decimal.dfy` | `Decimal` | `str(int)` and its parse, for file names |
| `checkpoint.dfy` | `Checkpoint` | checkpoint names, glob matching, string-order and epoch-order choice of the latest file |
| `setup.dfy` | `Setup` | scheduler dispatch, `rescale_action` |
| `config.dfy` | `Config` | `update_config` and the module-level default dicts |

Floats are modelled as `real`. The networks, the environment, the policy's action draw, the scalers and the reward shaper are function-valued parameters: `V` for the value network, indexed by epoch and iteration because the optimizer changes it after every iteration, and a `Rollout.World` for the rest. Each iteration's policy loss and value loss are inputs. Sampling is a nondeterministic choice of distinct positions. The directory listing that `glob` would return is an input.

The epoch loop (`Training.Train`) is stated for any rollout `roll` that satisfies `Training.Refills`: it keeps the buffer's capacity, fills it, and advances the step count by the capacity. `Training.CollectRefills` proves the generator's rollout (`Training.GeneratorRollout`, built on `Rollout.Collect`) meets that. `Training.TrainOnGenerator` is the loop on that rollout.

Behaviour of the code that the model keeps as written:

- **Value coefficient.** The adapted `vf_coef` is a local of `train_networks` that is never returned (`nanoppo/continuous_action_ppo.py:505-509`), and `train` passes the configured value every epoch (`:639`). The model restarts the trace every epoch; see `Training.ProgressedMeans`.
- **Sample failures.** `sample` raises the `ValueError` of `random.sample` when `k` is negative or exceeds the buffer's length, and the unpacking `ValueError` of `zip()` when `k` is 0 (`nanoppo/rollout_buffer.py:15-17`).
- **Stored state.** The state field of a stored tuple is the scaled next state, because `scaled_state` is overwritten before the push (`nanoppo/continuous_action_ppo.py:215`, `:228-235`).
- **Reward shaper input.** The shaper receives the episode's first raw state, because `state` is never reassigned inside the episode (`:221`).
- **GAE bootstrap.** GAE bootstraps from the value of the next sampled state, and only the last step uses `value(batch_next_states[-1])` (`:368-369`).
- **One-step returns.** The one-step path inserts the running `g` before updating it, so the last return is 0 (`:385-389`).
- **Action clamp.** `select_action` clamps every action dimension to the bounds of the first (`:185-186`, `:314-316`).
- **One-state GAE batch.** With `use_gae` and `batch_size` 1, `train_networks` raises `TypeError` (`:368`, `:265`). The training model raises it too; see Findings.
- **Rolling average.** The rolling average after every epoch is `sum(w)/len(w)` over the last 20 rewards (`:652`). It raises `ZeroDivisionError` when no episode has completed by the end of the first epoch. The model keeps that failure, and proves that only the first epoch can fail.

## Model

| member | source | states |
|---|---|---|
| Numeric.Clamp | nanoppo/continuous_action_ppo.py:440 | `min(max(x, lo), hi)` lies in `[lo, hi]`, is `x` inside the range, `lo` below it, `hi` above it, and `hi` whenever `lo > hi` |
| Numeric.CenteredSumIsZero | nanoppo/continuous_action_ppo.py:393 | the mean-centred advantages sum to zero (the centering half of the standardisation) |
| Numeric.MeanBounds | nanoppo/continuous_action_ppo.py:652 | a mean lies between any lower and upper bound of its entries |
| RolloutBuffer.Init | nanoppo/rollout_buffer.py:7-9 | a new buffer is empty, valid and has the given capacity |
| RolloutBuffer.Push | nanoppo/rollout_buffer.py:9-12 | length becomes `min(len + 1, capacity)` and never exceeds capacity; below capacity the tuple is appended with earlier entries unchanged and in order; at capacity the oldest is dropped, the rest shift down and the new tuple is last |
| RolloutBuffer.Len | nanoppo/rollout_buffer.py:26-27 | `len(buffer)` is within `maxlen` exactly when the buffer is well formed, and 0 exactly when it is empty |
| RolloutBuffer.Clear | nanoppo/rollout_buffer.py:29-30 | clearing leaves length 0 and the same capacity |
| RolloutBuffer.PushAllKeepsNewest | nanoppo/rollout_buffer.py:9-12 | after any run of pushes the buffer holds exactly the newest `capacity` tuples of its old contents followed by the pushed ones |
| RolloutBuffer.OverfillKeepsMostRecent | nanoppo/rollout_buffer.py:9-12 | after at least `capacity` pushes into an empty buffer it holds exactly the most recent `capacity` tuples in push order |
| RolloutBuffer.Unzip | nanoppo/rollout_buffer.py:15-17 | `zip(*tuples)` gives six aligned columns, one entry per tuple |
| RolloutBuffer.UnzipZip | nanoppo/rollout_buffer.py:15-24 | index i of every column comes from the i-th tuple: zipping the columns gives the tuples back |
| RolloutBuffer.ZipUnzip | nanoppo/rollout_buffer.py:15-24 | aligned columns are the columns of their own zip |
| RolloutBuffer.Sample | nanoppo/rollout_buffer.py:14-24 | succeeds iff `0 < k <= len`, returning `k` pairwise-distinct positions of the current contents and the aligned columns of those tuples; raises `ValueError` of `random.sample` for `k < 0` or `k > len` and the unpacking `ValueError` for `k == 0`; the buffer is an unchanged input |
| RolloutBuffer.DrawMembers | nanoppo/rollout_buffer.py:14-17 | every sampled tuple is a member of the current contents |
| Advantage.ComputeGae | nanoppo/continuous_action_ppo.py:264-272 | returns one entry per reward, `returns[s] = gae_s + values[s]` with `gae_s = delta_s + gamma*tau*masks[s]*gae_(s+1)`, `gae_n = 0` and `values[n] = next_value`; with `tau = 0` or a zero mask the return is the one-step target; the last return bootstraps from `next_value` |
| Advantage.GaeReturnFacts | nanoppo/continuous_action_ppo.py:264-272 | the GAE recurrence implies the one-step target whenever `tau = 0` or `masks[s] = 0`, and the `next_value` bootstrap at the last step |
| Advantage.GaeWithoutTail | nanoppo/continuous_action_ppo.py:269-271 | with `tau = 0` or a terminal mask the accumulator drops its tail |
| Advantage.GaeLastStep | nanoppo/continuous_action_ppo.py:265-271 | the last step's return is `r + gamma*next_value*mask` |
| Advantage.GaeConstantClosedForm | nanoppo/continuous_action_ppo.py:268-271 | with no terminals, constant reward and constant value the GAE advantage is the TD error times the geometric sum of `gamma*tau` over the remaining steps |
| Advantage.SqueezedValuesAsWritten | nanoppo/continuous_action_ppo.py:368 | `value(states).squeeze().tolist()` is a float, not a list, exactly for a one-state batch; otherwise it is the list of values |
| Advantage.GaeTargetsAsWritten | nanoppo/continuous_action_ppo.py:366-374 | the GAE branch raises `TypeError` exactly when `batch_size` is 1, and otherwise yields the GAE advantages |
| Advantage.GaeTargets | nanoppo/continuous_action_ppo.py:366-374 | advantages are the GAE accumulators over the sampled order with `next_value` from the last sampled next state, and each return is the advantage plus the sampled state's value |
| Advantage.OneStepTargets | nanoppo/continuous_action_ppo.py:361-389 | both lists have the batch's length, the last return is 0, each earlier return is the NEXT step's target `r + gamma*V(next)*mask`, and each advantage is the step's own target minus `V(state)` |
| Advantage.TauZeroGaeVersusOneStep | nanoppo/continuous_action_ppo.py:366-389 | with `tau = 0` the two branches agree on the last step, and on an earlier step exactly when it is terminal, `gamma = 0`, or the next sampled state's value equals the step's own next-state value |
| Surrogate.ClippedTerm | nanoppo/continuous_action_ppo.py:279-286 | the term is at most the unclipped `ratio*a` and at most the clipped `clamp(ratio, 1-eps, 1+eps)*a`, and it is one of the two |
| Surrogate.ClippedTermRegions | nanoppo/continuous_action_ppo.py:279-286 | the term equals `ratio*a` inside `[1-eps, 1+eps]`, `(1+eps)*a` for `a > 0` above the range, `(1-eps)*a` for `a < 0` below it, and `ratio*a` on the side where the clip cannot lower it (`a >= 0` with `ratio <= 1+eps`, `a <= 0` with `ratio >= 1-eps`) |
| Surrogate.PolicyLossIsPessimistic | nanoppo/continuous_action_ppo.py:280-286 | the clipped policy loss is never below the unclipped `-mean(ratio*a)` |
| Surrogate.PolicyLossInsideTrustRegion | nanoppo/continuous_action_ppo.py:280-286 | with every ratio inside the trust region the clipped loss equals the unclipped one |
| Surrogate.PolicyLoss | nanoppo/continuous_action_ppo.py:279-286 | the policy loss `-mean(min(surr1, surr2))` is never below the loss of the clipped term alone, `-mean(clamp(ratio, 1-eps, 1+eps)*a)` |
| Surrogate.LossRatio | nanoppo/continuous_action_ppo.py:430-437 | for a non-negative value loss the ratio exceeds 10 iff the policy loss exceeds 10 times `value_loss + 1e-10`, and is below 0.1 iff the policy loss is below a tenth of it |
| Surrogate.AdaptCoef | nanoppo/continuous_action_ppo.py:430-440 | the new `vf_coef` lies in `[0.1, 10]`; above ratio 10 it is `clamp(1.1*old)`, below 0.1 it is `clamp(0.9*old)`, otherwise `clamp(old)` |
| Surrogate.CoefTrace | nanoppo/continuous_action_ppo.py:429-440 | the coefficients of a run of updates stay in `[0.1, 10]`, the first being one update of the start value |
| Surrogate.CoefTraceSteps | nanoppo/continuous_action_ppo.py:429-440 | each coefficient is one update of the one before it |
| Surrogate.CoefRisesUnderPolicyDominance | nanoppo/continuous_action_ppo.py:434-440 | while every ratio exceeds 10 the coefficient never decreases, and once at 10 it stays there |
| Surrogate.CoefFallsUnderValueDominance | nanoppo/continuous_action_ppo.py:437-440 | while every ratio is below 0.1 the coefficient never increases, and once at 0.1 it stays there |
| Surrogate.AdaptFromOne | nanoppo/continuous_action_ppo.py:430-440 | from 1.0, policy loss 20 against value loss 1 drives `vf_coef` to 1.1 |
| Setup.SetupScheduler | nanoppo/continuous_action_ppo.py:117-127 | `None` gives no scheduler, `"exponential"`/`"cosine"` give theirs with their own config entries, and any other name raises `ValueError("Scheduler <name> not recognized.")` |
| Setup.DispatchRoundTrip | nanoppo/continuous_action_ppo.py:117-127 | each scheduler is produced by the configuration that names it |
| Setup.RescaleAction | nanoppo/continuous_action_ppo.py:150-151 | -1 maps to `action_min` and 1 to `action_max` |
| Setup.RescaleBounds | nanoppo/continuous_action_ppo.py:150-151 | a prediction in `[-1, 1]` lands in `[action_min, action_max]` |
| Setup.RescaleRoundTrip | nanoppo/continuous_action_ppo.py:150-151 | on a non-degenerate range the rescaling and its inverse undo each other, both ways |
| Decimal.IntRoundTrip | nanoppo/continuous_action_ppo.py:52 | the epoch printed into a file name parses back to the epoch |
| Decimal.IntToDecimalInjective | nanoppo/continuous_action_ppo.py:52 | different epochs print differently |
| Checkpoint.CheckpointName | nanoppo/continuous_action_ppo.py:52 | the entry saved for `epoch` is `checkpoint_epoch`, then `str(epoch)`, then `.pt`, each part readable at its own position |
| Checkpoint.CheckpointFile | nanoppo/continuous_action_ppo.py:52 | the saved path is the checkpoint directory, `/`, and that entry name |
| Checkpoint.Greatest | nanoppo/continuous_action_ppo.py:58-61 | `sorted(files)[-1]` is a member of the list and no member is greater in string order |
| Checkpoint.Candidates | nanoppo/continuous_action_ppo.py:58 | the glob returns `dir/name` for exactly the listed names matching `checkpoint_epoch*.pt`, and nothing iff none matches |
| Checkpoint.LoadCheckpointFile | nanoppo/continuous_action_ppo.py:57-63 | with an epoch it opens that epoch's file; without one it opens a matching file that no other match exceeds in string order, and raises `ValueError` iff nothing matches |
| Checkpoint.SavedNameRoundTrip | nanoppo/continuous_action_ppo.py:52-58 | the name saved for epoch `e` matches the load pattern and reads back as `e` |
| Checkpoint.SaveThenLoadSameEpoch | nanoppo/continuous_action_ppo.py:52-63 | the file `save_checkpoint` writes for epoch `e` is named by no other epoch, so the file that loading with `epoch = e` opens holds no other epoch's checkpoint |
| Checkpoint.NamesOfTwoEpochs | nanoppo/continuous_action_ppo.py:52 | epochs 999 and 1099 are saved as `checkpoint_epoch999.pt` and `checkpoint_epoch1099.pt` |
| Checkpoint.LaterEpochSortsFirst | nanoppo/continuous_action_ppo.py:58 | the file of epoch 1099 sorts before that of epoch 999 |
| Checkpoint.LexicographicLatestMissesNewest | nanoppo/continuous_action_ppo.py:57-61 | with epochs 999 and 1099 saved, loading without an epoch opens epoch 999 |
| Checkpoint.NewestByEpoch | nanoppo/continuous_action_ppo.py:57-61 | picks a listed entry whose epoch is readable and not exceeded by any other, and none iff no entry names an epoch |
| Checkpoint.LoadLatestByEpoch | nanoppo/continuous_action_ppo.py:57-61 | the corrected choice opens a file of the greatest saved epoch, raising `ValueError` iff no file names an epoch |
| Checkpoint.LatestByEpochPicksNewest | nanoppo/continuous_action_ppo.py:52-61 | over a directory of saved epochs the corrected choice opens the file of the greatest epoch |
| Config.ApplyOverrides | nanoppo/continuous_action_ppo.py:734-740 | the overlay succeeds iff every key belongs to one of the two dicts, fails with `ValueError` otherwise, and keeps both dicts' key sets |
| Config.OverlayKeeps | nanoppo/continuous_action_ppo.py:734-738 | defaults that no override names survive, as do `config` entries whose key belongs to `optimizer_config` |
| Config.OverlayPlaces | nanoppo/continuous_action_ppo.py:734-738 | with distinct keys each override lands in `optimizer_config` when the key is one of its keys, else in `config` |
| Config.UpdateConfigAlwaysRaises | nanoppo/continuous_action_ppo.py:731-747 | as written `update_config` never returns: `ValueError` for an unknown key, otherwise `KeyError('project')` |
| Config.UpdateConfigAsWritten | nanoppo/continuous_action_ppo.py:731-747 | as written, `update_config` raises `ValueError` exactly when some override key belongs to neither default dict |
| Config.UpdateConfig | nanoppo/continuous_action_ppo.py:731-747 | the corrected version raises `ValueError` exactly for an unknown key, and on success returns the keys of `config` plus `optimizer_config` and `checkpoint_path` |
| Config.CheckpointPath | nanoppo/continuous_action_ppo.py:744 | `str(Path("checkpoints") / project / env_name)` succeeds iff both are strings, and for plain names (non-empty, no `/`, not `.` or `..`) is then `checkpoints/`, the project, `/`, the environment name, each at its position; otherwise the `TypeError` of `/` for the first non-string operand |
| Config.Finish | nanoppo/continuous_action_ppo.py:741-746 | the `c.update` evaluates the path left to right: a missing `project` raises `KeyError('project')`, a non-string `project` raises the `TypeError` of its `/` before `env_name` is read, then a missing `env_name` raises `KeyError('env_name')`, then a non-string `env_name` its `TypeError`; on success it adds exactly `optimizer_config` (the overlaid optimizer dict) and `checkpoint_path`, keeping every other entry |
| Config.OverlayApplies | nanoppo/continuous_action_ppo.py:731-747 | on defaults with `project` and `env_name`, a successful update keeps the keys of `config` plus `optimizer_config` and `checkpoint_path`, places every override, keeps every other default, and sets the path `checkpoints/<project>/<env_name>` |
| Config.UpdateConfigApplies | nanoppo/continuous_action_ppo.py:731-747 | the corrected `update_config` raises `ValueError` iff some key is unknown, and a success is the overlay above, with the path `checkpoints/<project>/<env_name>` when both are plain names |
| Config.UpdateConfigDefaults | nanoppo/continuous_action_ppo.py:741-746 | the corrected `update_config` with no overrides succeeds with path `checkpoints/continuous-action-ppo/MountainCarContinuous-v0` |
| Rollout.ClampAction | nanoppo/continuous_action_ppo.py:314-316 | the clamped action keeps its length, lies within the bounds and leaves in-range components unchanged |
| Rollout.StoredReward | nanoppo/continuous_action_ppo.py:218-227 | the reward stored at step `n` is the raw reward, shaped by step `n`'s shaper when one is given, then scaled by step `n`'s scaler when one is given |
| Rollout.ScaleState | nanoppo/continuous_action_ppo.py:172-175 | the state passes through unchanged without a scaler and is the scaler's output with one (the same rule at `:210-213` for the next state) |
| Rollout.Step | nanoppo/continuous_action_ppo.py:166-261 | one `next()` draws the action for the current scaled state (the scaled reset observation at an episode's start), clamps it, steps the environment after the reset (if any) with that action, and pushes exactly one tuple holding the clamped action, its log-probability and the scaled next state in both state fields; it increments `total_steps`; the first yield of an episode reports `steps = 1`; a reward total is yielded iff `done or truncated`, and it is the accumulated raw reward; the episode restarts exactly then, and otherwise carries the scaled next state and the running total |
| Rollout.StepStoresShapedReward | nanoppo/continuous_action_ppo.py:205-235 | every pushed reward is the stored reward, with the shaper and scaler of that step's number, of the step's raw reward and raw next state and of the episode's first raw state, which stays fixed until the episode ends |
| Rollout.Collect | nanoppo/continuous_action_ppo.py:619-621 | pulling `k` steps yields `k` triples and pushes `k` tuples, keeping the buffer's capacity |
| Rollout.CollectAccounting | nanoppo/continuous_action_ppo.py:166-261 | pulling `k` steps pushes the `k` yielded tuples and advances `total_steps` by `k`, numbering the yields in order; completed-episode steps plus in-progress steps grow by `k` |
| Rollout.CollectStoresStateAsNextState | nanoppo/continuous_action_ppo.py:215-235 | a buffer filled by the generator only ever holds tuples whose state equals their next state |
| Rollout.PushKeepsStateIsNextState | nanoppo/continuous_action_ppo.py:215-235 | pushing such a tuple keeps that property |
| Rollout.CollectFillsClearedBuffer | nanoppo/continuous_action_ppo.py:619-621 | clearing and pulling `capacity` steps leaves the buffer full of exactly the pushed tuples in order |
| Training.SgdIteration | nanoppo/continuous_action_ppo.py:349-440 | an iteration succeeds iff `0 < batch_size <= len` and the batch is not a one-state GAE batch; it raises the sampling `ValueError`s outside that range and the `TypeError` of `values + [next_value]` (`:265`) for a one-state GAE batch; on success it draws `batch_size` distinct tuples whose targets follow the configured branch, and adapts `vf_coef` once |
| Training.Iterate | nanoppo/continuous_action_ppo.py:349-440 | the `sgd_iters` iterations all succeed iff `sgd_iters <= 0`, or `0 < batch_size <= len` and the batch is not a one-state GAE batch; otherwise the first iteration raises its sampling `ValueError` or `TypeError`; each iteration records a proper draw and the targets under the value network as that iteration sees it (`optimizer.step()` at `:460` moves it between iterations), and the coefficients follow the adaptation trace from `vf_coef` |
| Training.TrainNetworks | nanoppo/continuous_action_ppo.py:346-509 | raises `AssertionError` with the length message when the buffer is shorter than `batch_size`, else the sampling error for a non-positive `batch_size` with `sgd_iters > 0`, else the `TypeError` of a one-state GAE batch; on success returns `iter_num + sgd_iters` and the iterations, each with its targets under its own value network, with their coefficient trace |
| Training.TrainEpoch | nanoppo/continuous_action_ppo.py:627-647 | one epoch's training succeeds under the same condition, with the same exception otherwise, and returns the advanced counter and the coefficients used |
| Training.CheckpointSchedule | nanoppo/continuous_action_ppo.py:648-649 | the scheduled epochs lie in the run's range and each is due: `interval > 0` and `(epoch + 1) % interval == 0` |
| Training.ScheduleComplete | nanoppo/continuous_action_ppo.py:648-649 | every due epoch of the run is scheduled |
| Training.ScheduleSnoc | nanoppo/continuous_action_ppo.py:616-649 | one more epoch appends that epoch exactly when it is due |
| Training.EveryEpochSaved | nanoppo/continuous_action_ppo.py:648-649 | with interval 1 every epoch is saved, in order |
| Training.Completed | nanoppo/continuous_action_ppo.py:620-624 | an epoch records at most one reward per step |
| Training.CompletedCases | nanoppo/continuous_action_ppo.py:620-624 | an epoch records no reward when no step ends an episode, and every step's total, in order, when every step ends one |
| Training.CompletedNonEmpty | nanoppo/continuous_action_ppo.py:620-624 | an epoch records an episode reward iff one of its steps ended an episode |
| Training.Window | nanoppo/continuous_action_ppo.py:652 | `episode_rewards[-20:]` has `min(len, 20)` entries |
| Training.WindowKeepsNewest | nanoppo/continuous_action_ppo.py:652 | those entries are the newest rewards, in the order they were recorded |
| Training.RollingAverage | nanoppo/continuous_action_ppo.py:652 | the average succeeds iff some reward is recorded, and otherwise raises `ZeroDivisionError` |
| Training.RollingAverageBounds | nanoppo/continuous_action_ppo.py:652 | the rolling average lies within any bounds on the rewards |
| Training.CollectRefills | nanoppo/continuous_action_ppo.py:619-621 | the generator's rollout keeps the buffer's capacity, fills it, and advances the step count by the capacity |
| Training.EpochRolloutFills | nanoppo/continuous_action_ppo.py:619-621 | each epoch's rollout advances the step count by the capacity and leaves the buffer full |
| Training.RolloutRewardsGrow | nanoppo/continuous_action_ppo.py:620-624 | the episode rewards recorded by the first `k` epochs' rollouts are a prefix of those recorded by any later epoch |
| Training.NextProgress | nanoppo/continuous_action_ppo.py:616-652 | a successful epoch advances the counter by `sgd_iters` and sets the rolling average, that of the recorded rewards, exactly when a reward is on record |
| Training.NextProgressExtends | nanoppo/continuous_action_ppo.py:616-652 | an epoch never revises the record: it only appends episode rewards, at most one saved epoch and exactly one coefficient trace |
| Training.EpochResult | nanoppo/continuous_action_ppo.py:616-652 | an epoch succeeds iff training works on the refilled buffer and some episode reward is on record; otherwise it raises `train_networks`' exception, or the division by zero; on success it yields the next record |
| Training.RunEpoch | nanoppo/continuous_action_ppo.py:616-652 | one epoch raises `train_networks`' exception when the refilled buffer cannot supply batches, the division by zero when no reward is recorded, and otherwise yields the next record |
| Training.OnlyFirstEpochFails | nanoppo/continuous_action_ppo.py:616-652 | after one successful epoch every later epoch succeeds; the first succeeds iff training works on a full buffer and it completes an episode |
| Training.EpochStep | nanoppo/continuous_action_ppo.py:616-652 | an epoch after `k` successes fails only at `k = 0`, with the first-epoch exception, and a success extends the record by one epoch |
| Training.StartRun | nanoppo/continuous_action_ppo.py:616-652 | the first epoch from the empty record succeeds iff training works on a full buffer and its rollout completes an episode; otherwise it raises the first-epoch exception; a success is the record of one epoch |
| Training.LaterEpoch | nanoppo/continuous_action_ppo.py:616-652 | an epoch after at least one successful one always succeeds and extends the record by one epoch |
| Training.ContinueRun | nanoppo/continuous_action_ppo.py:616-652 | running the epoch after `k` successful ones fails only when `k = 0`, with the first-epoch exception, and otherwise extends the record by one epoch |
| Training.ProgressedMeans | nanoppo/continuous_action_ppo.py:609-652 | after `k` epochs the counter is `k * sgd_iters` and `k * capacity` steps were pulled; the generator, the buffer and the episode rewards are those the `k` chained rollouts left, each rollout continuing from the previous one; the saved epochs are the schedule; each epoch's coefficient trace restarts from the configured `vf_coef`; from the first epoch on, the buffer is full and the average is that of the recorded rewards |
| Training.Train | nanoppo/continuous_action_ppo.py:609-652 | the loop over `range(last_epoch, last_epoch + epochs)` succeeds iff `epochs <= 0`, or training works on a full buffer and the first epoch completes an episode; it fails with the first epoch's exception; on success the record is that of `epochs` epochs, with the generator, buffer and episode rewards of the chained rollouts |
| Training.TrainOnGenerator | nanoppo/continuous_action_ppo.py:596-652 | the same, on the generator's rollout |

## Left out

- Networks, `torch.distributions`, `log_prob`, `exp`, entropy, autograd, gradient clipping, Adam and the learning-rate schedules are foreign tensor code. The value network is a function `V` chosen freely per iteration (how `optimizer.step()` changes it is not modelled), the importance ratio is an input, and each iteration's losses are inputs.
- Advantage standardisation divides by a floating-point standard deviation. Only the mean-centering is modelled (`Numeric.CenteredSumIsZero`). The value loss is an input.
- Floating-point rounding: every float is a `real`, and `1e-10` guards are exact.
- The environment, `gym` space inspection, dict-valued observations, the state scaler, the reward shaper and the reward scaler are functions in a `Rollout.World`. The shaper and the reward scaler take the step number, so a TD shaper whose value network is being trained and a scaler with running statistics are both covered; how those change from step to step is not modelled.
- `wandb`, `tqdm`, `MetricsRecorder`, `print`, `torch.save`/`torch.load` and `os`/`glob` are I/O. The directory listing is an input, and the epoch stored inside a checkpoint and restored on resume is not modelled.
- The tensor conversion in `sample` and the randomness of `random.sample` are left out: the draw is any choice of distinct positions.
- `setup_env` and network construction in `setup_networks` are left out. Only the scheduler dispatch is modelled.
- `ppo_agent_with_network.py` and `network_manager.py` duplicate the modelled surrogate and dispatch over torch modules. `train.py` is command-line parsing.
- `Training.CheckpointSchedule`: records the epochs after which a checkpoint is saved rather than the paths. The path of each is `Checkpoint.CheckpointFile(checkpoint_path, epoch)`. A first epoch that raises `ZeroDivisionError` with `checkpoint_interval` 1 has already saved its checkpoint (`save_checkpoint` at `:648-649` runs before the rolling average at `:652`); the model's `Err` result does not record that save.
- `Training.Train`: the rollout is any `Training.Refills` rollout. The generator's own is `Training.TrainOnGenerator`. Epoch number, reward reporting and the report callback are not modelled.
- `Training.Progress`: the `episode_steps` list (`nanoppo/continuous_action_ppo.py:610`, `:623`) is not kept, because nothing reads it after it is appended to.
- `Config.ApplyOverrides`: an override dict is a sequence of distinct keys in iteration order. Python values are the `Config.Value` datatype, and `deepcopy` is value semantics.
- `Config.CheckpointPath`: the layout `checkpoints/<project>/<env_name>` is promised only for plain names. `pathlib` drops empty and `.` segments, splits a name at `/` and restarts at an absolute name, and that normalisation is not modelled, so for other strings the model's path is not the one Python builds.

## Findings

| source | as written | input that shows it | evidently intended | confidence | as-written member | corrected member |
|---|---|---|---|---|---|---|
| nanoppo/continuous_action_ppo.py:57-61 | the latest checkpoint is the last file name in string order | files for epochs 999 and 1099: `checkpoint_epoch999.pt` sorts last, so epoch 999 is loaded | load the file of the greatest epoch number | not executed | Checkpoint.LexicographicLatestMissesNewest | Checkpoint.LatestByEpochPicksNewest |
| nanoppo/continuous_action_ppo.py:731-747 | `c["project"]` is read, but the default `config` (`:692-716`) has no `project` key | any override dict, for example `{}`: `KeyError('project')` | the checkpoint path `checkpoints/<project>/<env_name>` with `project` defaulting to `"continuous-action-ppo"`, as `train` does | not executed | Config.UpdateConfigAlwaysRaises | Config.UpdateConfigApplies |
| nanoppo/continuous_action_ppo.py:368 | `value(batch_states).squeeze().tolist()` is a float for a one-state batch, and `values + [next_value]` in `compute_gae` (`:265`) raises | `use_gae=True`, `batch_size=1`: `TypeError` | one value per sampled state for every batch size | not executed | Advantage.GaeTargetsAsWritten | Advantage.GaeTargets |

=== FILE: advantage.dfy ===
/** Return and advantage targets for a sampled mini-batch: Generalized Advantage
    Estimation (`compute_gae`) and the one-step bootstrap loop of `train_networks`.
    Both walk the batch backwards in the order it was sampled, not in episode order. */
module Advantage {
  import opened Wrappers
  import opened RolloutBuffer

  /** `1 - done`. */
  function Mask(done: bool): real
  {
    if done then 0.0 else 1.0
  }

  function Masks(dones: seq<bool>): (r: seq<real>)
    ensures |r| == |dones|
  {
    seq(|dones|, i requires 0 <= i < |dones| => Mask(dones[i]))
  }

  /** The value estimate of every state, in batch order. */
  function Values(V: Vec -> real, states: seq<Vec>): (r: seq<real>)
    ensures |r| == |states|
  {
    seq(|states|, i requires 0 <= i < |states| => V(states[i]))
  }

  /** The TD residual of `step`, where `ext` is `values + [next_value]`. */
  function Delta(rewards: seq<real>, masks: seq<real>, ext: seq<real>, gamma: real, step: nat): real
    requires step < |rewards| <= |masks| && |rewards| < |ext|
  {
    rewards[step] + gamma * ext[step + 1] * masks[step] - ext[step]
  }

  /** The GAE accumulator once steps `n-1` down to `s` have been folded in:
      `gae_n = 0` and `gae_s = delta_s + gamma * tau * masks[s] * gae_(s+1)`. */
  function Gae(rewards: seq<real>, masks: seq<real>, ext: seq<real>, gamma: real, tau: real, s: nat): real
    requires |rewards| <= |masks| && |rewards| < |ext| && s <= |rewards|
    decreases |rewards| - s
  {
    if s == |rewards| then 0.0
    else Delta(rewards, masks, ext, gamma, s) + gamma * tau * masks[s] * Gae(rewards, masks, ext, gamma, tau, s + 1)
  }

  /** `compute_gae`: the loop from the last step to the first, inserting each return
      at the front. `values[step + 1]` is the NEXT ENTRY of `values` (the following
      sampled state), and only past the end of `values` is `next_value` used; when
      `values` is longer than `rewards`, `next_value` is never read. */
  method ComputeGae(nextValue: real, rewards: seq<real>, masks: seq<real>, values: seq<real>, gamma: real, tau: real)
    returns (rets: seq<real>)
    requires |masks| >= |rewards| && |values| >= |rewards|
    ensures |rets| == |rewards|
    ensures forall s :: 0 <= s < |rets| ==>
      rets[s] == Gae(rewards, masks, values + [nextValue], gamma, tau, s) + values[s]
    ensures forall s :: 0 <= s < |rets| && (tau == 0.0 || masks[s] == 0.0) ==>
      rets[s] == rewards[s] + gamma * (values + [nextValue])[s + 1] * masks[s]
    ensures 0 < |rewards| == |values| ==>
      rets[|rewards| - 1] == rewards[|rewards| - 1] + gamma * nextValue * masks[|rewards| - 1]
  {
    var ext := values + [nextValue];
    var gae := 0.0;
    rets := [];
    var step := |rewards|;
    while step > 0
      invariant 0 <= step <= |rewards|
      invariant |rets| == |rewards| - step
      invariant gae == Gae(rewards, masks, ext, gamma, tau, step)
      invariant forall j :: 0 <= j < |rets| ==>
        rets[j] == Gae(rewards, masks, ext, gamma, tau, step + j) + ext[step + j]
    {
      step := step - 1;
      var delta := rewards[step] + gamma * ext[step + 1] * masks[step] - ext[step];
      assert delta == Delta(rewards, masks, ext, gamma, step);
      gae := delta + gamma * tau * masks[step] * gae;
      assert gae == Gae(rewards, masks, ext, gamma, tau, step);
      ghost var later := rets;
      rets := [gae + ext[step]] + rets;
      forall j | 0 <= j < |rets|
        ensures rets[j] == Gae(rewards, masks, ext, gamma, tau, step + j) + ext[step + j]
      {
        if j > 0 {
          assert rets[j] == later[j - 1];
        }
      }
    }
    GaeReturnFacts(nextValue, rewards, masks, values, gamma, tau, rets);
  }

  /** What the returns of `compute_gae` imply on the one-step and last-step cases. */
  lemma GaeReturnFacts(nextValue: real, rewards: seq<real>, masks: seq<real>, values: seq<real>, gamma: real, tau: real,
                       rets: seq<real>)
    requires |masks| >= |rewards| && |values| >= |rewards| && |rets| == |rewards|
    requires forall s :: 0 <= s < |rets| ==>
      rets[s] == Gae(rewards, masks, values + [nextValue], gamma, tau, s) + (values + [nextValue])[s]
    ensures forall s :: 0 <= s < |rets| ==>
      rets[s] == Gae(rewards, masks, values + [nextValue], gamma, tau, s) + values[s]
    ensures forall s :: 0 <= s < |rets| && (tau == 0.0 || masks[s] == 0.0) ==>
      rets[s] == rewards[s] + gamma * (values + [nextValue])[s + 1] * masks[s]
    ensures 0 < |rewards| == |values| ==>
      rets[|rewards| - 1] == rewards[|rewards| - 1] + gamma * nextValue * masks[|rewards| - 1]
  {
    var ext := values + [nextValue];
    assert forall j :: 0 <= j < |values| ==> ext[j] == values[j];
    if 0 < |rewards| == |values| {
      GaeLastStep(rewards, masks, ext, gamma, tau);
    }
    forall s | 0 <= s < |rets| && (tau == 0.0 || masks[s] == 0.0)
      ensures rets[s] == rewards[s] + gamma * ext[s + 1] * masks[s]
    {
      GaeWithoutTail(rewards, masks, ext, gamma, tau, s);
    }
  }

  /** The last step has no tail to fold in. */
  lemma GaeLastStep(rewards: seq<real>, masks: seq<real>, ext: seq<real>, gamma: real, tau: real)
    requires 0 < |rewards| <= |masks| && |rewards| < |ext|
    ensures Gae(rewards, masks, ext, gamma, tau, |rewards| - 1) + ext[|rewards| - 1]
         == rewards[|rewards| - 1] + gamma * ext[|rewards|] * masks[|rewards| - 1]
  {
  }

  /** With `tau == 0` or a terminal mask the accumulator drops its tail, and the
      return is the one-step bootstrap target. */
  lemma GaeWithoutTail(rewards: seq<real>, masks: seq<real>, ext: seq<real>, gamma: real, tau: real, s: nat)
    requires |rewards| <= |masks| && |rewards| < |ext| && s < |rewards|
    requires tau == 0.0 || masks[s] == 0.0
    ensures Gae(rewards, masks, ext, gamma, tau, s) + ext[s] == rewards[s] + gamma * ext[s + 1] * masks[s]
  {
    var tail := Gae(rewards, masks, ext, gamma, tau, s + 1);
    assert gamma * tau * masks[s] * tail == 0.0;
  }

  /** `[ret - val for ret, val in zip(returns, values)]`: `zip` stops at the shorter. */
  function Differences(rets: seq<real>, values: seq<real>): (r: seq<real>)
    ensures |r| == if |rets| <= |values| then |rets| else |values|
  {
    var n := if |rets| <= |values| then |rets| else |values|;
    seq(n, i requires 0 <= i < n => rets[i] - values[i])
  }

  /** What `values + [next_value]` raises when `values` is a float. */
  const ScalarValuesError: Error := TypeError("unsupported operand type(s) for +: 'float' and 'list'")

  /** The value list as `value(batch_states).squeeze().tolist()` produces it: for a
      single state the squeezed tensor is a scalar, `tolist()` gives a float, and
      `values + [next_value]` inside `compute_gae` raises. */
  function SqueezedValuesAsWritten(V: Vec -> real, states: seq<Vec>): (r: Result<seq<real>>)
    ensures r.Err? <==> |states| == 1
    ensures r.Err? ==> r.error == ScalarValuesError
    ensures r.Ok? ==> r.value == Values(V, states)
  {
    if |states| == 1 then Err(ScalarValuesError)
    else Ok(Values(V, states))
  }

  /** The GAE branch of `train_networks` as written: values of the sampled states,
      `next_value` from the last sampled next-state only, masks `1 - done`. */
  method GaeTargetsAsWritten(b: Batch, V: Vec -> real, gamma: real, tau: real)
    returns (r: Result<(seq<real>, seq<real>)>)
    requires b.Aligned() && b.Size() > 0
    ensures r.Err? <==> b.Size() == 1
    ensures r.Err? ==> r.error == ScalarValuesError
    ensures r.Ok? ==> |r.value.0| == b.Size() && |r.value.1| == b.Size()
    ensures r.Ok? ==> forall s :: 0 <= s < b.Size() ==>
      r.value.1[s] == Gae(b.rewards, Masks(b.dones), GaeExt(b, V), gamma, tau, s)
    ensures r.Ok? ==> forall s :: 0 <= s < b.Size() ==> r.value.0[s] == r.value.1[s] + V(b.states[s])
  {
    var values := SqueezedValuesAsWritten(V, b.states);
    if values.Err? {
      return Err(values.error);
    }
    var rets, advs := GaeTargets(b, V, gamma, tau);
    return Ok((rets, advs));
  }

  /** The extended value list the GAE branch feeds to `compute_gae`. */
  function GaeExt(b: Batch, V: Vec -> real): (r: seq<real>)
    requires b.Aligned() && b.Size() > 0
    ensures |r| == b.Size() + 1
  {
    Values(V, b.states) + [V(b.nextStates[b.Size() - 1])]
  }

  /** The GAE branch of `train_networks` with one value per sampled state for every
      batch size: the advantage of step `s` is the GAE accumulator `gae_s`, and the
      return adds back the value of the sampled state. */
  method GaeTargets(b: Batch, V: Vec -> real, gamma: real, tau: real)
    returns (rets: seq<real>, advs: seq<real>)
    requires b.Aligned() && b.Size() > 0
    ensures |rets| == b.Size() && |advs| == b.Size()
    ensures forall s :: 0 <= s < b.Size() ==>
      advs[s] == Gae(b.rewards, Masks(b.dones), GaeExt(b, V), gamma, tau, s)
    ensures forall s :: 0 <= s < b.Size() ==> rets[s] == advs[s] + V(b.states[s])
  {
    var values := Values(V, b.states);
    var nextValue := V(b.nextStates[b.Size() - 1]);
    assert values + [nextValue] == GaeExt(b, V);
    rets := ComputeGae(nextValue, b.rewards, Masks(b.dones), values, gamma, tau);
    advs := Differences(rets, values);
  }

  /** The one-step bootstrap target of step `i`: `r_i + gamma * V(next_i) * mask_i`. */
  function OneStepTarget(b: Batch, V: Vec -> real, gamma: real, i: nat): real
    requires b.Aligned() && i < b.Size()
  {
    b.rewards[i] + gamma * V(b.nextStates[i]) * Mask(b.dones[i])
  }

  /** Masking the next value twice is masking it once, since a mask is 0 or 1. */
  lemma MaskTwice(gamma: real, v: real, m: real)
    requires m == 0.0 || m == 1.0
    ensures gamma * (v * m) * m == gamma * v * m
    ensures gamma * (v * m) == gamma * v * m
  {
  }

  /** The non-GAE branch of `train_networks`. Walking the batch backwards, each step
      first inserts the running `g` (the target of the step AFTER it, 0 for the last
      step) and only then recomputes `g`; its advantage is its own one-step TD error. */
  method OneStepTargets(b: Batch, V: Vec -> real, gamma: real)
    returns (rets: seq<real>, advs: seq<real>)
    requires b.Aligned()
    ensures |rets| == b.Size() && |advs| == b.Size()
    ensures b.Size() > 0 ==> rets[b.Size() - 1] == 0.0
    ensures forall i :: 0 <= i < b.Size() - 1 ==> rets[i] == OneStepTarget(b, V, gamma, i + 1)
    ensures forall i :: 0 <= i < b.Size() ==> advs[i] == OneStepTarget(b, V, gamma, i) - V(b.states[i])
  {
    var n := b.Size();
    rets, advs := [], [];
    var g := 0.0;
    var i := n;
    while i > 0
      invariant 0 <= i <= n
      invariant |rets| == n - i && |advs| == n - i
      invariant g == if i < n then OneStepTarget(b, V, gamma, i) else 0.0
      invariant forall j :: 0 <= j < |rets| ==>
        rets[j] == if i + j + 1 < n then OneStepTarget(b, V, gamma, i + j + 1) else 0.0
      invariant forall j :: 0 <= j < |advs| ==>
        advs[j] == OneStepTarget(b, V, gamma, i + j) - V(b.states[i + j])
    {
      i := i - 1;
      var mask := Mask(b.dones[i]);
      var nextValue := V(b.nextStates[i]) * mask;
      ghost var laterRets, laterAdvs := rets, advs;
      rets := [g] + rets;
      var current := V(b.states[i]);
      var delta := b.rewards[i] + gamma * nextValue - current;
      advs := [delta] + advs;
      MaskTwice(gamma, V(b.nextStates[i]), mask);
      assert delta == OneStepTarget(b, V, gamma, i) - V(b.states[i]);
      g := b.rewards[i] + gamma * nextValue * mask;
      assert g == OneStepTarget(b, V, gamma, i);
      forall j | 0 <= j < |rets|
        ensures rets[j] == if i + j + 1 < n then OneStepTarget(b, V, gamma, i + j + 1) else 0.0
      {
        if j > 0 {
          assert rets[j] == laterRets[j - 1];
        }
      }
      forall j | 0 <= j < |advs|
        ensures advs[j] == OneStepTarget(b, V, gamma, i + j) - V(b.states[i + j])
      {
        if j > 0 {
          assert advs[j] == laterAdvs[j - 1];
        }
      }
    }
  }

  /** With `tau = 0` the GAE advantage of the last step always equals the one-step
      advantage; at an earlier step it does exactly when the step is terminal, `gamma`
      is 0, or the value of the NEXT SAMPLED state equals the value of the step's own
      next state, because GAE bootstraps from the former and the one-step path from
      the latter. */
  lemma TauZeroGaeVersusOneStep(b: Batch, V: Vec -> real, gamma: real, s: nat)
    requires b.Aligned() && s < b.Size()
    ensures s == b.Size() - 1 ==>
      Gae(b.rewards, Masks(b.dones), GaeExt(b, V), gamma, 0.0, s) == OneStepTarget(b, V, gamma, s) - V(b.states[s])
    ensures s < b.Size() - 1 ==>
      (Gae(b.rewards, Masks(b.dones), GaeExt(b, V), gamma, 0.0, s) == OneStepTarget(b, V, gamma, s) - V(b.states[s])
       <==> (b.dones[s] || gamma == 0.0 || V(b.states[s + 1]) == V(b.nextStates[s])))
  {
    var ext := GaeExt(b, V);
    var m := Mask(b.dones[s]);
    var gae := Gae(b.rewards, Masks(b.dones), ext, gamma, 0.0, s);
    assert gae == b.rewards[s] + gamma * ext[s + 1] * m - ext[s];
    assert ext[s] == V(b.states[s]);
    if s < b.Size() - 1 {
      assert ext[s + 1] == V(b.states[s + 1]);
      ProductZero(gamma * m, V(b.states[s + 1]) - V(b.nextStates[s]));
      ProductZero(gamma, m);
      assert gae - (OneStepTarget(b, V, gamma, s) - V(b.states[s]))
          == gamma * m * (V(b.states[s + 1]) - V(b.nextStates[s]));
    }
  }

  lemma ProductZero(x: real, y: real)
    ensures x * y == 0.0 <==> x == 0.0 || y == 0.0
  {
  }

  /** `sum_{t < k} x^t`. */
  function Geometric(x: real, k: nat): real
  {
    if k == 0 then 0.0 else 1.0 + x * Geometric(x, k - 1)
  }

  /** With every mask 1, a constant reward `r` and every value (including the
      bootstrap) equal to `v`, the GAE advantage of step `s` is the geometric sum
      `(r + gamma*v - v) * sum_{t < n-s} (gamma*tau)^t`. */
  lemma {:induction false} GaeConstantClosedForm(
    rewards: seq<real>, masks: seq<real>, ext: seq<real>, gamma: real, tau: real, r: real, v: real, s: nat)
    requires |masks| == |rewards| && |ext| == |rewards| + 1 && s <= |rewards|
    requires forall i :: 0 <= i < |rewards| ==> rewards[i] == r && masks[i] == 1.0
    requires forall i :: 0 <= i < |ext| ==> ext[i] == v
    ensures Gae(rewards, masks, ext, gamma, tau, s) == (r + gamma * v - v) * Geometric(gamma * tau, |rewards| - s)
    decreases |rewards| - s
  {
    if s < |rewards| {
      GaeConstantClosedForm(rewards, masks, ext, gamma, tau, r, v, s + 1);
      var d := r + gamma * v - v;
      var x := gamma * tau;
      var k := |rewards| - s;
      var tail := Geometric(x, k - 1);
      assert rewards[s] == r && masks[s] == 1.0 && ext[s] == v && ext[s + 1] == v;
      assert Delta(rewards, masks, ext, gamma, s) == d;
      assert Gae(rewards, masks, ext, gamma, tau, s + 1) == d * tail;
      assert Gae(rewards, masks, ext, gamma, tau, s)
          == d + gamma * tau * masks[s] * Gae(rewards, masks, ext, gamma, tau, s + 1);
      assert Gae(rewards, masks, ext, gamma, tau, s) == d + x * (d * tail);
      assert d * Geometric(x, k) == d * (1.0 + x * tail);
      Distribute(d, x, tail);
    }
  }

  lemma Distribute(d: real, x: real, t: real)
    ensures d * (1.0 + x * t) == d + x * (d * t)
  {
  }
}

=== FILE: checkpoint.dfy ===
/** Checkpoint file naming in `save_checkpoint` and the choice of file in
    `load_checkpoint`. The directory scan of `glob` is an input (`listing`, the entry
    names of the directory); writing and reading the files is not modelled. */
module Checkpoint {
  import opened Wrappers
  import opened Decimal

  const FilePrefix: string := "checkpoint_epoch"
  const FileSuffix: string := ".pt"

  /** The entry name written for `epoch`: the prefix, the epoch in decimal, the
      suffix, each readable back from its place. */
  function CheckpointName(epoch: int): (r: string)
    ensures |r| == |FilePrefix| + |IntToDecimal(epoch)| + |FileSuffix|
    ensures r[..|FilePrefix|] == FilePrefix
    ensures r[|FilePrefix|..|r| - |FileSuffix|] == IntToDecimal(epoch)
    ensures r[|r| - |FileSuffix|..] == FileSuffix
  {
    FilePrefix + IntToDecimal(epoch) + FileSuffix
  }

  /** `f"{checkpoint_path}/checkpoint_epoch{epoch}.pt"`: the entry name, inside the
      directory. */
  function CheckpointFile(dir: string, epoch: int): (r: string)
    ensures |r| == |dir| + 1 + |CheckpointName(epoch)|
    ensures r[..|dir| + 1] == dir + "/"
    ensures r[|dir| + 1..] == CheckpointName(epoch)
  {
    dir + "/" + CheckpointName(epoch)
  }

  /** A directory entry matched by the glob pattern `checkpoint_epoch*.pt`. */
  predicate MatchesPattern(name: string)
  {
    && |name| >= |FilePrefix| + |FileSuffix|
    && name[..|FilePrefix|] == FilePrefix
    && name[|name| - |FileSuffix|..] == FileSuffix
  }

  /** Python's `<` on `str`: code point by code point, a proper prefix first. */
  predicate LexLess(a: string, b: string)
    decreases |a|
  {
    |b| > 0 && (|a| == 0 || a[0] < b[0] || (a[0] == b[0] && LexLess(a[1..], b[1..])))
  }

  lemma {:induction false} LexLessIrreflexive(a: string)
    ensures !LexLess(a, a)
    decreases |a|
  {
    if |a| > 0 {
      LexLessIrreflexive(a[1..]);
    }
  }

  lemma {:induction false} LexLessTransitive(a: string, b: string, c: string)
    requires LexLess(a, b) && LexLess(b, c)
    ensures LexLess(a, c)
    decreases |a|
  {
    if |a| > 0 && a[0] == b[0] && b[0] == c[0] {
      LexLessTransitive(a[1..], b[1..], c[1..]);
    }
  }

  lemma {:induction false} LexLessTotal(a: string, b: string)
    ensures a == b || LexLess(a, b) || LexLess(b, a)
    decreases |a|
  {
    if |a| > 0 && |b| > 0 && a[0] == b[0] {
      LexLessTotal(a[1..], b[1..]);
      if a[1..] == b[1..] {
        assert a == [a[0]] + a[1..] && b == [b[0]] + b[1..];
      }
    }
  }

  lemma LexLessTransitiveAll()
    ensures forall a, b, c :: LexLess(a, b) && LexLess(b, c) ==> LexLess(a, c)
  {
    forall a, b, c | LexLess(a, b) && LexLess(b, c)
      ensures LexLess(a, c)
    {
      LexLessTransitive(a, b, c);
    }
  }

  /** `sorted(files)[-1]`: the greatest name in string order. */
  function Greatest(files: seq<string>): (r: string)
    requires |files| > 0
    ensures r in files
    ensures forall f :: f in files ==> f == r || LexLess(f, r)
  {
    if |files| == 1 then files[0]
    else
      var m := Greatest(files[..|files| - 1]);
      var last := files[|files| - 1];
      assert files == files[..|files| - 1] + [last];
      if LexLess(m, last) then LexLessTransitiveAll(); last
      else LexLessTotal(m, last); m
  }

  /** The paths `glob` returns for `{dir}/checkpoint_epoch*.pt`, in listing order. */
  function Candidates(dir: string, listing: seq<string>): (r: seq<string>)
    ensures forall n :: n in listing && MatchesPattern(n) ==> dir + "/" + n in r
    ensures forall p :: p in r ==> exists n :: n in listing && MatchesPattern(n) && p == dir + "/" + n
    ensures |r| == 0 <==> forall n :: n in listing ==> !MatchesPattern(n)
  {
    if |listing| == 0 then []
    else
      var rest := Candidates(dir, listing[1..]);
      assert forall n :: n in listing ==> n == listing[0] || n in listing[1..];
      if MatchesPattern(listing[0]) then [dir + "/" + listing[0]] + rest else rest
  }

  const NoCheckpoint := ValueError("No checkpoint found in the specified directory.")

  /** The file `load_checkpoint` opens: the named epoch's file when `epoch` is given
      (whether or not it exists), otherwise the last glob match in sorted order, and a
      `ValueError` when nothing matches. */
  function LoadCheckpointFile(dir: string, epoch: Option<int>, listing: seq<string>): (r: Result<string>)
    ensures epoch.Some? ==> r == Ok(CheckpointFile(dir, epoch.value))
    ensures epoch.None? ==> (r.Err? <==> forall n :: n in listing ==> !MatchesPattern(n))
    ensures r.Err? ==> r.error == NoCheckpoint
    ensures epoch.None? && r.Ok? ==>
      exists n :: n in listing && MatchesPattern(n) && r.value == dir + "/" + n
    ensures epoch.None? && r.Ok? ==>
      forall n :: n in listing && MatchesPattern(n) ==> dir + "/" + n == r.value || LexLess(dir + "/" + n, r.value)
  {
    match epoch
    case Some(e) => Ok(CheckpointFile(dir, e))
    case None =>
      var files := Candidates(dir, listing);
      if |files| == 0 then Err(NoCheckpoint) else Ok(Greatest(files))
  }

  /** The epoch a directory entry names, read back from between the prefix and the
      suffix. */
  function EpochOf(name: string): Option<int>
  {
    if MatchesPattern(name) then ParseInt(name[|FilePrefix|..|name| - |FileSuffix|]) else None
  }

  /** What `save_checkpoint` writes for epoch `e` is matched by the pattern `load_checkpoint`
      globs for, and its name gives `e` back. */
  lemma SavedNameRoundTrip(epoch: int)
    ensures MatchesPattern(CheckpointName(epoch))
    ensures EpochOf(CheckpointName(epoch)) == Some(epoch)
  {
    IntRoundTrip(epoch);
  }

  /** Loading with `epoch = e` opens the name `save_checkpoint` writes for `e`, and
      no other epoch is saved under that name. */
  lemma SaveThenLoadSameEpoch(dir: string, epoch: int)
    ensures forall e :: CheckpointFile(dir, e) == CheckpointFile(dir, epoch) ==> e == epoch
  {
    forall e | CheckpointFile(dir, e) == CheckpointFile(dir, epoch)
      ensures e == epoch
    {
      SavedNameRoundTrip(e);
      SavedNameRoundTrip(epoch);
    }
  }

  lemma NamesOfTwoEpochs()
    ensures CheckpointName(999) == "checkpoint_epoch999.pt"
    ensures CheckpointName(1099) == "checkpoint_epoch1099.pt"
  {
    assert NatToDecimal(99) == "99";
    assert NatToDecimal(999) == "999";
    assert NatToDecimal(109) == "109";
    assert NatToDecimal(1099) == "1099";
  }

  lemma CandidatesOfTwoEpochs(dir: string)
    ensures Candidates(dir, [CheckpointName(999), CheckpointName(1099)])
         == [CheckpointFile(dir, 999), CheckpointFile(dir, 1099)]
  {
    SavedNameRoundTrip(999);
    SavedNameRoundTrip(1099);
  }

  lemma LaterEpochSortsFirst(dir: string)
    ensures LexLess(CheckpointFile(dir, 1099), CheckpointFile(dir, 999))
    ensures !LexLess(CheckpointFile(dir, 999), CheckpointFile(dir, 1099))
  {
    NamesOfTwoEpochs();
    var stem := dir + "/checkpoint_epoch";
    var a, b := CheckpointFile(dir, 999), CheckpointFile(dir, 1099);
    assert a == stem + "999.pt";
    assert b == stem + "1099.pt";
    assert LexLess("1099.pt", "999.pt");
    LexLessAfterCommonPrefix(stem, "1099.pt", "999.pt");
    LexLessIrreflexive(a);
    if LexLess(a, b) {
      LexLessTransitive(a, b, a);
    }
  }

  /** The newest of several saved epochs need not be chosen: with checkpoints of
      epochs 999 and 1099 on disk, `load_checkpoint` with `epoch=None` opens epoch
      999, because `'9' > '1'`. */
  lemma LexicographicLatestMissesNewest(dir: string)
    ensures LoadCheckpointFile(dir, None, [CheckpointName(999), CheckpointName(1099)]) == Ok(CheckpointFile(dir, 999))
  {
    CandidatesOfTwoEpochs(dir);
    LaterEpochSortsFirst(dir);
    var a, b := CheckpointFile(dir, 999), CheckpointFile(dir, 1099);
    assert Greatest([a, b]) == a by {
      assert [a, b][..1] == [a];
    }
  }

  lemma {:induction false} LexLessAfterCommonPrefix(p: string, x: string, y: string)
    requires LexLess(x, y)
    ensures LexLess(p + x, p + y)
    decreases |p|
  {
    if |p| > 0 {
      assert (p + x)[1..] == p[1..] + x;
      assert (p + y)[1..] == p[1..] + y;
      assert (p + x)[0] == p[0] == (p + y)[0];
      LexLessAfterCommonPrefix(p[1..], x, y);
    } else {
      assert p + x == x && p + y == y;
    }
  }

  /** Among the entries whose epoch can be read, one with the greatest epoch. */
  function NewestByEpoch(names: seq<string>): (r: Option<string>)
    ensures r.None? <==> forall n :: n in names ==> EpochOf(n).None?
    ensures r.Some? ==> r.value in names && EpochOf(r.value).Some?
    ensures r.Some? ==> forall n :: n in names && EpochOf(n).Some? ==> EpochOf(n).value <= EpochOf(r.value).value
  {
    if |names| == 0 then None
    else
      var rest := NewestByEpoch(names[1..]);
      var head := names[0];
      assert forall n :: n in names ==> n == head || n in names[1..];
      if EpochOf(head).None? then rest
      else if rest.None? || EpochOf(rest.value).value < EpochOf(head).value then Some(head)
      else rest
  }

  /** No readable entry of the listing names a later epoch than `n`. */
  predicate NoNewerThan(listing: seq<string>, n: string)
    requires EpochOf(n).Some?
  {
    forall m :: m in listing && EpochOf(m).Some? ==> EpochOf(m).value <= EpochOf(n).value
  }

  /** Corrected choice of the latest checkpoint: the file with the greatest epoch
      number, not the greatest name. */
  function LoadLatestByEpoch(dir: string, listing: seq<string>): (r: Result<string>)
    ensures r.Err? <==> forall n :: n in listing ==> EpochOf(n).None?
    ensures r.Err? ==> r.error == NoCheckpoint
    ensures r.Ok? ==>
      exists n :: n in listing && EpochOf(n).Some? && r.value == dir + "/" + n && NoNewerThan(listing, n)
  {
    match NewestByEpoch(listing)
    case None => Err(NoCheckpoint)
    case Some(n) => Ok(dir + "/" + n)
  }

  /** When the directory holds exactly the files saved for a set of epochs, the
      corrected choice opens the file of the greatest epoch: on the listing above,
      epoch 1099. */
  lemma LatestByEpochPicksNewest(dir: string, epochs: seq<int>, listing: seq<string>, newest: int)
    requires |listing| == |epochs|
    requires forall i :: 0 <= i < |epochs| ==> listing[i] == CheckpointName(epochs[i])
    requires newest in epochs
    requires forall e :: e in epochs ==> e <= newest
    ensures LoadLatestByEpoch(dir, listing) == Ok(CheckpointFile(dir, newest))
  {
    ListingEpochs(epochs, listing);
    var k :| 0 <= k < |epochs| && epochs[k] == newest;
    var r := NewestByEpoch(listing);
    assert r.Some? by {
      assert listing[k] in listing && EpochOf(listing[k]).Some?;
    }
    var j :| 0 <= j < |listing| && listing[j] == r.value;
    assert epochs[j] == newest by {
      assert EpochOf(r.value) == Some(epochs[j]);
      assert EpochOf(listing[k]) == Some(newest);
      assert listing[k] in listing;
      assert newest <= epochs[j];
      assert epochs[j] in epochs;
    }
    assert r.value == CheckpointName(newest);
  }

  lemma ListingEpochs(epochs: seq<int>, listing: seq<string>)
    requires |listing| == |epochs|
    requires forall i :: 0 <= i < |epochs| ==> listing[i] == CheckpointName(epochs[i])
    ensures forall i :: 0 <= i < |epochs| ==> EpochOf(listing[i]) == Some(epochs[i])
  {
    forall i | 0 <= i < |epochs|
      ensures EpochOf(listing[i]) == Some(epochs[i])
    {
      SavedNameRoundTrip(epochs[i]);
    }
  }
}

=== FILE: config.dfy ===
/** `update_config`: overlay a dict of overrides on copies of the module-level
    `config` and `optimizer_config`, then add the nested optimizer config and the
    checkpoint path. */
module Config {
  import opened Wrappers

  /** The Python values that appear in the configuration dicts. */
  datatype Value =
    | NoneValue
    | Bool(b: bool)
    | Int(i: int)
    | Float(x: real)
    | Str(s: string)
    | Dict(entries: map<string, Value>)

  type Settings = map<string, Value>

  /** The overrides, as `(key, value)` pairs in the dict's iteration order. */
  type Overrides = seq<(string, Value)>

  predicate DistinctKeys(items: Overrides)
  {
    forall i, j :: 0 <= i < j < |items| ==> items[i].0 != items[j].0
  }

  predicate Overridden(items: Overrides, key: string)
  {
    exists i :: 0 <= i < |items| && items[i].0 == key
  }

  /** The module-level `config` dict. */
  const ConfigDefaults: Settings := map[
    "env_name" := Str("MountainCarContinuous-v0"),
    "env_config" := NoneValue,
    "seed" := NoneValue,
    "epochs" := Int(30),
    "rescaling_rewards" := Bool(true),
    "shape_reward" := NoneValue,
    "scale_states" := Str("standard"),
    "init_type" := Str("he"),
    "use_gae" := Bool(false),
    "tau" := Float(0.97),
    "l1_loss" := Bool(false),
    "rollout_buffer_size" := Int(4096),
    "sgd_iters" := Int(20),
    "hidden_size" := Int(64),
    "batch_size" := Int(64),
    "gamma" := Float(0.99),
    "vf_coef" := Int(1),
    "clip_param" := Float(0.2),
    "max_grad_norm" := Float(0.9),
    "entropy_coef" := Float(0.0001),
    "wandb_log" := Bool(true),
    "verbose" := Int(2),
    "checkpoint_interval" := Int(100)]

  /** The module-level `optimizer_config` dict; `cosine_T_max` is `epochs * sgd_iters`
      of the defaults. */
  const OptimizerDefaults: Settings := map[
    "policy_lr" := Float(0.0003),
    "value_lr" := Float(0.00003),
    "beta1" := Float(0.9),
    "beta2" := Float(0.98),
    "epsilon" := Float(0.00000001),
    "weight_decay" := Float(0.0001),
    "scheduler" := Str("cosine"),
    "exponential_gamma" := Float(0.9995),
    "cosine_T_max" := Int(30 * 20)]

  /** The loop over the overrides: a key of `optimizer_config` goes there, else a key
      of `config` goes there, else `ValueError` for the first unknown key. */
  function ApplyOverrides(o: Settings, c: Settings, items: Overrides): (r: Result<(Settings, Settings)>)
    ensures r.Ok? <==> forall i :: 0 <= i < |items| ==> items[i].0 in o || items[i].0 in c
    ensures r.Err? ==> r.error.ValueError?
    ensures r.Ok? ==> r.value.0.Keys == o.Keys && r.value.1.Keys == c.Keys
    decreases |items|
  {
    if |items| == 0 then Ok((o, c))
    else
      var (key, value) := items[0];
      if key in o then ApplyOverrides(o[key := value], c, items[1..])
      else if key in c then ApplyOverrides(o, c[key := value], items[1..])
      else Err(ValueError("Key " + key + " not recognized."))
  }

  /** A key no later override mentions keeps its value: every default that is not
      overridden survives, and so does every `config` entry whose key belongs to
      `optimizer_config` (such overrides go there instead). */
  lemma {:induction false} OverlayKeeps(o: Settings, c: Settings, items: Overrides)
    requires ApplyOverrides(o, c, items).Ok?
    ensures forall k :: k in o && !Overridden(items, k) ==> ApplyOverrides(o, c, items).value.0[k] == o[k]
    ensures forall k :: k in c && (k in o || !Overridden(items, k)) ==> ApplyOverrides(o, c, items).value.1[k] == c[k]
    decreases |items|
  {
    if |items| > 0 {
      var (key, value) := items[0];
      var rest := items[1..];
      assert forall k :: !Overridden(items, k) ==> k != key && !Overridden(rest, k) by {
        forall k | !Overridden(items, k)
          ensures k != key && !Overridden(rest, k)
        {
          assert items[0].0 == key;
          forall j | 0 <= j < |rest|
            ensures rest[j].0 != k
          {
            assert rest[j] == items[j + 1];
          }
        }
      }
      if key in o {
        OverlayKeeps(o[key := value], c, rest);
      } else {
        OverlayKeeps(o, c[key := value], rest);
      }
    }
  }

  /** With distinct keys, every override lands: in `optimizer_config` when the key is
      one of its keys, else in `config`. */
  lemma {:induction false} OverlayPlaces(o: Settings, c: Settings, items: Overrides)
    requires ApplyOverrides(o, c, items).Ok? && DistinctKeys(items)
    ensures forall i :: 0 <= i < |items| && items[i].0 in o ==> ApplyOverrides(o, c, items).value.0[items[i].0] == items[i].1
    ensures forall i :: 0 <= i < |items| && items[i].0 !in o ==> ApplyOverrides(o, c, items).value.1[items[i].0] == items[i].1
    decreases |items|
  {
    if |items| > 0 {
      var (key, value) := items[0];
      var rest := items[1..];
      assert DistinctKeys(rest) by {
        forall i, j | 0 <= i < j < |rest|
          ensures rest[i].0 != rest[j].0
        {
          assert rest[i] == items[i + 1] && rest[j] == items[j + 1];
        }
      }
      assert !Overridden(rest, key) by {
        forall j | 0 <= j < |rest|
          ensures rest[j].0 != key
        {
          assert rest[j] == items[j + 1];
        }
      }
      assert forall i :: 1 <= i < |items| ==> items[i] == rest[i - 1];
      if key in o {
        OverlayPlaces(o[key := value], c, rest);
        OverlayKeeps(o[key := value], c, rest);
      } else {
        OverlayPlaces(o, c[key := value], rest);
        OverlayKeeps(o, c[key := value], rest);
      }
    }
  }

  /** The name of a value's Python type, as `TypeError` messages print it. */
  function TypeName(v: Value): string
  {
    match v
    case NoneValue => "NoneType"
    case Bool(_) => "bool"
    case Int(_) => "int"
    case Float(_) => "float"
    case Str(_) => "str"
    case Dict(_) => "dict"
  }

  /** What `path / v` raises when `v` is not a string: `PurePath.__truediv__`
      declines the operand and Python reports the two operand types. */
  function PathJoinError(v: Value): Error
  {
    TypeError("unsupported operand type(s) for /: 'PosixPath' and '" + TypeName(v) + "'")
  }

  /** The directory every checkpoint path starts in, with its separator. */
  const CheckpointRoot: string := "checkpoints/"

  /** A name that `Path` joins as one segment: `pathlib` drops empty and `"."`
      segments, splits at `/` and restarts at an absolute name. */
  predicate PlainName(s: string)
  {
    |s| > 0 && '/' !in s && s != "." && s != ".."
  }

  /** `str(Path("checkpoints") / project / env_name)`; the first operand that is not
      a string raises. The layout is stated for plain names only. */
  function CheckpointPath(project: Value, envName: Value): (r: Result<Value>)
    ensures r.Ok? <==> project.Str? && envName.Str?
    ensures !project.Str? ==> r == Err(PathJoinError(project))
    ensures project.Str? && !envName.Str? ==> r == Err(PathJoinError(envName))
    ensures r.Ok? ==> r.value.Str?
    ensures r.Ok? && PlainName(project.s) && PlainName(envName.s) ==>
      && |r.value.s| == |CheckpointRoot| + |project.s| + 1 + |envName.s|
      && r.value.s[..|CheckpointRoot|] == CheckpointRoot
      && r.value.s[|CheckpointRoot|..|CheckpointRoot| + |project.s|] == project.s
      && r.value.s[|CheckpointRoot| + |project.s|] == '/'
      && r.value.s[|CheckpointRoot| + |project.s| + 1..] == envName.s
  {
    if !project.Str? then Err(PathJoinError(project))
    else if !envName.Str? then Err(PathJoinError(envName))
    else Ok(Str(CheckpointRoot + project.s + "/" + envName.s))
  }

  /** Adding `optimizer_config` and `checkpoint_path` to the overlaid `config`. The
      path reads `project` before `env_name`, so a missing `project` is the `KeyError`
      reported, and a `project` that is not a string raises at its `/` before
      `env_name` is read; every other entry of `config` is kept. */
  function Finish(o: Settings, c: Settings): (r: Result<Settings>)
    ensures "project" !in c ==> r == Err(KeyError("project"))
    ensures "project" in c && !c["project"].Str? ==> r == Err(PathJoinError(c["project"]))
    ensures "project" in c && c["project"].Str? && "env_name" !in c ==> r == Err(KeyError("env_name"))
    ensures "project" in c && "env_name" in c ==>
      (r.Ok? <==> CheckpointPath(c["project"], c["env_name"]).Ok?)
    ensures "project" in c && "env_name" in c && r.Err? ==> r.error == CheckpointPath(c["project"], c["env_name"]).error
    ensures r.Ok? ==> r.value.Keys == c.Keys + {"optimizer_config", "checkpoint_path"}
    ensures r.Ok? ==> r.value["optimizer_config"] == Dict(o)
    ensures r.Ok? ==> r.value["checkpoint_path"] == CheckpointPath(c["project"], c["env_name"]).value
    ensures r.Ok? ==> forall k :: k in c && k != "optimizer_config" && k != "checkpoint_path" ==> r.value[k] == c[k]
  {
    if "project" !in c then Err(KeyError("project"))
    else if !c["project"].Str? then Err(PathJoinError(c["project"]))
    else if "env_name" !in c then Err(KeyError("env_name"))
    else match CheckpointPath(c["project"], c["env_name"])
      case Err(e) => Err(e)
      case Ok(path) => Ok(c["optimizer_config" := Dict(o)]["checkpoint_path" := path])
  }

  /** `update_config` as written: an unknown key raises `ValueError`, and nothing
      else does. */
  function UpdateConfigAsWritten(overrides: Overrides): (r: Result<Settings>)
    ensures (r.Err? && r.error.ValueError?)
        <==> exists i :: 0 <= i < |overrides| && overrides[i].0 !in OptimizerDefaults && overrides[i].0 !in ConfigDefaults
  {
    match ApplyOverrides(OptimizerDefaults, ConfigDefaults, overrides)
    case Err(e) => Err(e)
    case Ok((o, c)) => Finish(o, c)
  }

  /** `update_config` as written never returns: the overlaid `config` only ever has
      the keys of the default `config`, which has no `"project"`, so an override dict
      with an unknown key raises `ValueError` and any other raises `KeyError` at
      `c["project"]`. */
  lemma UpdateConfigAlwaysRaises(overrides: Overrides)
    ensures UpdateConfigAsWritten(overrides).Err?
    ensures (forall i :: 0 <= i < |overrides| ==> overrides[i].0 in OptimizerDefaults || overrides[i].0 in ConfigDefaults)
      <==> UpdateConfigAsWritten(overrides) == Err(KeyError("project"))
  {
    assert "project" !in ConfigDefaults;
  }

  /** The default configuration with the `project` entry that `train` takes (its
      default `"continuous-action-ppo"`). */
  const CorrectedDefaults: Settings := ConfigDefaults["project" := Str("continuous-action-ppo")]

  /** Corrected `update_config`: the same overlay on defaults that include
      `project`. */
  function UpdateConfig(overrides: Overrides): (r: Result<Settings>)
    ensures (r.Err? && r.error.ValueError?)
        <==> exists i :: 0 <= i < |overrides| && overrides[i].0 !in OptimizerDefaults && overrides[i].0 !in CorrectedDefaults
    ensures r.Ok? ==> r.value.Keys == CorrectedDefaults.Keys + {"optimizer_config", "checkpoint_path"}
  {
    match ApplyOverrides(OptimizerDefaults, CorrectedDefaults, overrides)
    case Err(e) => Err(e)
    case Ok((o, c)) => Finish(o, c)
  }

  /** The facts about the default dicts' keys that the corrected overlay relies on. */
  predicate OverlayReady(o: Settings, c: Settings)
  {
    && "project" in c && "env_name" in c
    && "project" !in o && "env_name" !in o
    && "optimizer_config" !in o && "optimizer_config" !in c
    && "checkpoint_path" !in o && "checkpoint_path" !in c
  }

  /** A successful overlay: every override lands in its dict, every other default is
      kept, and for plain names the checkpoint path is `checkpoints/<project>/<env_name>`. */
  predicate Overlaid(o: Settings, c: Settings, overrides: Overrides, r: Settings)
  {
    && r.Keys == c.Keys + {"optimizer_config", "checkpoint_path"}
    && r["optimizer_config"].Dict?
    && r["optimizer_config"].entries.Keys == o.Keys
    && "project" in r && "env_name" in r
    && r["project"].Str? && r["env_name"].Str?
    && r["checkpoint_path"].Str?
    && (PlainName(r["project"].s) && PlainName(r["env_name"].s) ==>
          r["checkpoint_path"] == Str("checkpoints/" + r["project"].s + "/" + r["env_name"].s))
    && (forall i :: 0 <= i < |overrides| && overrides[i].0 in o ==>
          r["optimizer_config"].entries[overrides[i].0] == overrides[i].1)
    && (forall i :: 0 <= i < |overrides| && overrides[i].0 in c && overrides[i].0 !in o ==>
          r[overrides[i].0] == overrides[i].1)
    && (forall k :: k in c && !Overridden(overrides, k) ==> r[k] == c[k])
  }

  lemma {:induction false} OverlayApplies(o: Settings, c: Settings, overrides: Overrides)
    requires OverlayReady(o, c) && DistinctKeys(overrides)
    ensures var r := ApplyOverrides(o, c, overrides);
      r.Ok? && Finish(r.value.0, r.value.1).Ok? ==> Overlaid(o, c, overrides, Finish(r.value.0, r.value.1).value)
  {
    var r := ApplyOverrides(o, c, overrides);
    if r.Ok? && Finish(r.value.0, r.value.1).Ok? {
      var (o', c') := r.value;
      OverlayKeeps(o, c, overrides);
      OverlayPlaces(o, c, overrides);
      var path := CheckpointPath(c'["project"], c'["env_name"]);
      var f := c'["optimizer_config" := Dict(o')]["checkpoint_path" := path.value];
      assert Finish(o', c') == Ok(f);
      assert c'.Keys == c.Keys && o'.Keys == o.Keys;
      assert f.Keys == c.Keys + {"optimizer_config", "checkpoint_path"};
      assert f["project"] == c'["project"] && f["env_name"] == c'["env_name"];
      assert f["optimizer_config"] == Dict(o');
      forall i | 0 <= i < |overrides| && overrides[i].0 in c && overrides[i].0 !in o
        ensures f[overrides[i].0] == overrides[i].1
      {
        assert overrides[i].0 != "optimizer_config" && overrides[i].0 != "checkpoint_path";
      }
      forall k | k in c && !Overridden(overrides, k)
        ensures f[k] == c[k]
      {
        assert k != "optimizer_config" && k != "checkpoint_path";
      }
    }
  }

  lemma CorrectedDefaultsReady()
    ensures OverlayReady(OptimizerDefaults, CorrectedDefaults)
  {
    OptimizerDefaultsKeys();
    CorrectedDefaultsKeys();
  }

  lemma OptimizerDefaultsKeys()
    ensures "project" !in OptimizerDefaults && "env_name" !in OptimizerDefaults
    ensures "optimizer_config" !in OptimizerDefaults && "checkpoint_path" !in OptimizerDefaults
  {
  }

  lemma CorrectedDefaultsKeys()
    ensures "project" in CorrectedDefaults && "env_name" in CorrectedDefaults
    ensures "optimizer_config" !in CorrectedDefaults && "checkpoint_path" !in CorrectedDefaults
  {
  }

  /** With the corrected defaults, unknown keys still raise `ValueError`, and any
      other override dict that leaves `project` and `env_name` strings is overlaid. */
  lemma UpdateConfigApplies(overrides: Overrides)
    requires DistinctKeys(overrides)
    ensures (UpdateConfig(overrides).Err? && UpdateConfig(overrides).error.ValueError?)
        <==> exists i :: 0 <= i < |overrides| && overrides[i].0 !in OptimizerDefaults && overrides[i].0 !in CorrectedDefaults
    ensures UpdateConfig(overrides).Ok? ==> Overlaid(OptimizerDefaults, CorrectedDefaults, overrides, UpdateConfig(overrides).value)
  {
    CorrectedDefaultsReady();
    OverlayApplies(OptimizerDefaults, CorrectedDefaults, overrides);
  }

  /** With no overrides the corrected `update_config` yields the defaults and the path
      `checkpoints/continuous-action-ppo/MountainCarContinuous-v0`. */
  lemma UpdateConfigDefaults()
    ensures UpdateConfig([]).Ok?
    ensures UpdateConfig([]).value["checkpoint_path"]
         == Str("checkpoints/" + "continuous-action-ppo" + "/" + "MountainCarContinuous-v0")
  {
    CorrectedDefaultsReady();
    var c := CorrectedDefaults;
    assert c["project"] == Str("continuous-action-ppo");
    assert c["env_name"] == Str("MountainCarContinuous-v0");
    assert ApplyOverrides(OptimizerDefaults, c, []) == Ok((OptimizerDefaults, c));
  }
}

=== FILE: decimal.dfy ===
/** Python's `str(int)` (decimal, leading `-` for negatives, no leading zeros) and the
    matching parse back. */
module Decimal {
  import opened Wrappers

  predicate IsDigit(c: char)
  {
    '0' <= c <= '9'
  }

  predicate AllDigits(s: string)
  {
    forall i :: 0 <= i < |s| ==> IsDigit(s[i])
  }

  function DigitChar(d: nat): (c: char)
    requires d < 10
    ensures IsDigit(c)
  {
    ('0' as int + d) as char
  }

  function DigitValue(c: char): nat
    requires IsDigit(c)
  {
    c as int - '0' as int
  }

  function NatToDecimal(n: nat): (s: string)
    ensures |s| > 0 && AllDigits(s)
    ensures |s| > 1 ==> s[0] != '0'
    decreases n
  {
    if n < 10 then [DigitChar(n)] else NatToDecimal(n / 10) + [DigitChar(n % 10)]
  }

  /** `str(i)`. */
  function IntToDecimal(i: int): string
  {
    if i < 0 then "-" + NatToDecimal(-i) else NatToDecimal(i)
  }

  function ParseDigits(s: string): nat
    requires AllDigits(s)
  {
    if |s| == 0 then 0 else 10 * ParseDigits(s[..|s| - 1]) + DigitValue(s[|s| - 1])
  }

  /** An optional `-` followed by one or more decimal digits; anything else is
      rejected. */
  function ParseInt(s: string): Option<int>
  {
    if |s| > 0 && AllDigits(s) then Some(ParseDigits(s))
    else if |s| > 1 && s[0] == '-' && AllDigits(s[1..]) then Some(-(ParseDigits(s[1..]) as int))
    else None
  }

  lemma {:induction false} NatRoundTrip(n: nat)
    ensures ParseDigits(NatToDecimal(n)) == n
    decreases n
  {
    if n >= 10 {
      NatRoundTrip(n / 10);
      var s := NatToDecimal(n);
      assert s[..|s| - 1] == NatToDecimal(n / 10);
    }
  }

  /** Printing an integer and parsing it back gives the integer. */
  lemma IntRoundTrip(i: int)
    ensures ParseInt(IntToDecimal(i)) == Some(i)
  {
    if i < 0 {
      NatRoundTrip(-i);
      var s := IntToDecimal(i);
      assert s[1..] == NatToDecimal(-i);
      assert !IsDigit(s[0]);
    } else {
      NatRoundTrip(i);
    }
  }

  /** Different integers print differently. */
  lemma IntToDecimalInjective(i: int, j: int)
    requires IntToDecimal(i) == IntToDecimal(j)
    ensures i == j
  {
    IntRoundTrip(i);
    IntRoundTrip(j);
  }
}

=== FILE: numeric.dfy ===
/** Real-valued helpers shared by the estimators and the loss arithmetic. */
module Numeric {

  function Min(a: real, b: real): real { if a <= b then a else b }

  function Max(a: real, b: real): real { if a >= b then a else b }

  /** `min(max(x, lo), hi)`, which is also what `torch.clamp(x, lo, hi)` computes:
      when `lo > hi` every input is sent to `hi`. */
  function Clamp(x: real, lo: real, hi: real): (r: real)
    ensures lo <= hi ==> lo <= r <= hi
    ensures lo <= x <= hi ==> r == x
    ensures lo <= hi && x < lo ==> r == lo
    ensures x > hi ==> r == hi
    ensures lo > hi ==> r == hi
  {
    Min(Max(x, lo), hi)
  }

  function Sum(xs: seq<real>): real
  {
    if |xs| == 0 then 0.0 else xs[0] + Sum(xs[1..])
  }

  /** Arithmetic mean, as `torch.mean` on a non-empty vector. */
  function Mean(xs: seq<real>): real
    requires |xs| > 0
  {
    Sum(xs) / (|xs| as real)
  }

  /** Pointwise `xs[i] - c`. */
  function Shift(xs: seq<real>, c: real): (r: seq<real>)
    ensures |r| == |xs|
  {
    seq(|xs|, i requires 0 <= i < |xs| => xs[i] - c)
  }

  /** Summation is monotone in every entry. */
  lemma {:induction false} SumMonotone(xs: seq<real>, ys: seq<real>)
    requires |xs| == |ys|
    requires forall i :: 0 <= i < |xs| ==> xs[i] <= ys[i]
    ensures Sum(xs) <= Sum(ys)
  {
    if |xs| > 0 {
      SumMonotone(xs[1..], ys[1..]);
    }
  }

  /** Subtracting a constant from every entry lowers the sum by `|xs| * c`. */
  lemma {:induction false} SumShift(xs: seq<real>, c: real)
    ensures Sum(Shift(xs, c)) == Sum(xs) - (|xs| as real) * c
  {
    if |xs| > 0 {
      SumShift(xs[1..], c);
      assert Shift(xs, c)[1..] == Shift(xs[1..], c);
    }
  }

  /** Mean-centering, the first half of the advantage standardisation: the centred
      vector sums to zero. */
  lemma CenteredSumIsZero(xs: seq<real>)
    requires |xs| > 0
    ensures Sum(Shift(xs, Mean(xs))) == 0.0
  {
    SumShift(xs, Mean(xs));
    RemoveMean(Sum(xs), |xs| as real, Mean(xs));
  }

  lemma RemoveMean(s: real, n: real, m: real)
    requires n != 0.0 && m == s / n
    ensures s - n * m == 0.0
  {
  }

  /** `n` copies of `c`. */
  function Constant(c: real, n: nat): (r: seq<real>)
    ensures |r| == n
  {
    seq(n, _ => c)
  }

  lemma {:induction false} SumConstant(c: real, n: nat)
    ensures Sum(Constant(c, n)) == (n as real) * c
  {
    if n > 0 {
      SumConstant(c, n - 1);
      assert Constant(c, n)[1..] == Constant(c, n - 1);
    }
  }

  /** A mean lies between any bounds of its entries. */
  lemma MeanBounds(xs: seq<real>, lo: real, hi: real)
    requires |xs| > 0
    requires forall i :: 0 <= i < |xs| ==> lo <= xs[i] <= hi
    ensures lo <= Mean(xs) <= hi
  {
    var n := |xs| as real;
    SumMonotone(Constant(lo, |xs|), xs);
    SumMonotone(xs, Constant(hi, |xs|));
    SumConstant(lo, |xs|);
    SumConstant(hi, |xs|);
    DivideBetween(Sum(xs), n, lo, hi);
  }

  lemma DivideBetween(s: real, n: real, lo: real, hi: real)
    requires n > 0.0 && n * lo <= s <= n * hi
    ensures lo <= s / n <= hi
  {
  }
}

=== FILE: rollout.dfy ===
/** `rollout_with_step` as an explicit state machine. The generator's locals become a
    `Driver` record and one `next()` becomes one `Step`. The environment, the policy's
    action draw and the optional state scaler, reward shaper and reward scaler are
    supplied as functions in a `World`. */
module Rollout {
  import opened Wrappers
  import opened Numeric
  import opened RolloutBuffer

  /** What `env.step(action)` returns (the observation already taken out of a
      dict-valued observation). */
  datatype EnvOutcome = EnvOutcome(nextState: Vec, reward: real, done: bool, truncated: bool)

  /** The collaborators. `E` is the environment's hidden state. `sampleAction` is the
      policy's draw for a scaled state, returning the action and its summed
      log-probability. The draw, the reward shaper and the reward scaler each take
      the number of the step as their last argument, because the networks behind
      them change as training proceeds (the TD shaper reads the value network that
      every optimiser step updates) and the reward scaler keeps running statistics. */
  datatype World<!E> = World(
    reset: E -> (E, Vec),
    envStep: (E, Vec) -> (E, EnvOutcome),
    sampleAction: (Vec, nat) -> (Vec, real),
    actionLow: real,
    actionHigh: real,
    scaleState: Option<Vec -> Vec>,
    shapeReward: Option<(real, Vec, Vec, nat) -> real>,
    scaleReward: Option<(real, nat) -> real>)

  /** Where the generator is suspended: before an episode's reset, or inside an
      episode with its step count, the raw observation `state` from the reset (never
      reassigned inside the episode), the current scaled state and the accumulated
      raw reward. */
  datatype Phase =
    | EpisodeStart
    | InEpisode(steps: nat, resetState: Vec, scaledState: Vec, accumulated: real)

  datatype Driver<!E> = Driver(env: E, phase: Phase, totalSteps: nat)

  /** What one `next()` yields: the episode's total reward when it just ended, the
      step count within the episode and the total step count. */
  datatype Yield = Yield(totalReward: Option<real>, steps: nat, totalSteps: nat)

  /** One step: the new generator state, the buffer after the push, the yielded
      triple, the pushed tuple and the environment's answer. */
  datatype StepResult<!E> = StepResult(
    driver: Driver<E>, buffer: Buffer, out: Yield, pushed: Transition, outcome: EnvOutcome)

  /** The generator before its first `next()`. */
  function Start<E>(env: E): Driver<E>
  {
    Driver(env, EpisodeStart, 0)
  }

  /** `state_scaler.scale_state(state)` when a scaler is configured, else the state
      itself. */
  function ScaleState<E>(w: World<E>, s: Vec): (r: Vec)
    ensures w.scaleState.None? ==> r == s
    ensures w.scaleState.Some? ==> r == w.scaleState.value(s)
  {
    match w.scaleState
    case None => s
    case Some(f) => f(s)
  }

  /** `action.clamp(action_min, action_max)` with the bounds of the FIRST action
      dimension applied to every dimension. */
  function ClampAction(a: Vec, lo: real, hi: real): (r: Vec)
    ensures |r| == |a|
    ensures lo <= hi ==> forall i :: 0 <= i < |r| ==> lo <= r[i] <= hi
    ensures forall i :: 0 <= i < |r| && lo <= a[i] <= hi ==> r[i] == a[i]
  {
    seq(|a|, i requires 0 <= i < |a| => Clamp(a[i], lo, hi))
  }

  /** The reward that step `n` stores: shaped (from the raw reward, the episode's
      reset state and the raw next state), then scaled; each stage is skipped when its
      collaborator is absent. */
  function StoredReward<E>(w: World<E>, n: nat, reward: real, resetState: Vec, nextState: Vec): (r: real)
    ensures w.shapeReward.None? && w.scaleReward.None? ==> r == reward
    ensures w.shapeReward.Some? && w.scaleReward.None? ==> r == w.shapeReward.value(reward, resetState, nextState, n)
    ensures w.shapeReward.None? && w.scaleReward.Some? ==> r == w.scaleReward.value(reward, n)
    ensures w.shapeReward.Some? && w.scaleReward.Some? ==>
      r == w.scaleReward.value(w.shapeReward.value(reward, resetState, nextState, n), n)
  {
    var shaped := match w.shapeReward
      case None => reward
      case Some(f) => f(reward, resetState, nextState, n);
    match w.scaleReward
    case None => shaped
    case Some(f) => f(shaped, n)
  }

  function Ended(o: EnvOutcome): bool
  {
    o.done || o.truncated
  }

  /** Steps taken so far in the episode that is in progress. */
  function InProgress(p: Phase): nat
  {
    match p
    case EpisodeStart => 0
    case InEpisode(steps, _, _, _) => steps
  }

  /** The environment the step acts on: the one the reset returns at an episode's
      start, else the driver's. */
  function EnvBefore<E>(w: World<E>, d: Driver<E>): E
  {
    match d.phase
    case EpisodeStart => w.reset(d.env).0
    case InEpisode(_, _, _, _) => d.env
  }

  /** The scaled state the action is drawn for: the scaled reset observation at an
      episode's start, else the scaled state carried from the previous step. */
  function DrawState<E>(w: World<E>, d: Driver<E>): Vec
  {
    match d.phase
    case EpisodeStart => ScaleState(w, w.reset(d.env).1)
    case InEpisode(_, _, scaled, _) => scaled
  }

  /** One `next()` of the generator: draw an action for the current scaled state,
      clamp it, step the environment with it, and store the scaled next state in both
      state fields. */
  function Step<E>(w: World<E>, d: Driver<E>, buf: Buffer): (r: StepResult<E>)
    ensures r.pushed.action == ClampAction(w.sampleAction(DrawState(w, d), d.totalSteps).0, w.actionLow, w.actionHigh)
    ensures r.pushed.logProb == w.sampleAction(DrawState(w, d), d.totalSteps).1
    ensures w.envStep(EnvBefore(w, d), r.pushed.action) == (r.driver.env, r.outcome)
    ensures r.pushed.nextState == ScaleState(w, r.outcome.nextState)
    ensures r.buffer == Push(buf, r.pushed)
    ensures r.pushed.state == r.pushed.nextState
    ensures r.pushed.done == r.outcome.done
    ensures r.driver.totalSteps == d.totalSteps + 1 && r.out.totalSteps == r.driver.totalSteps
    ensures r.out.steps == InProgress(d.phase) + 1
    ensures d.phase.EpisodeStart? ==> r.out.steps == 1
    ensures r.out.totalReward.Some? <==> Ended(r.outcome)
    ensures r.driver.phase.EpisodeStart? <==> Ended(r.outcome)
    ensures !Ended(r.outcome) ==> InProgress(r.driver.phase) == r.out.steps
    ensures r.out.totalReward.Some? ==>
      r.out.totalReward.value == (if d.phase.EpisodeStart? then 0.0 else d.phase.accumulated) + r.outcome.reward
    ensures !Ended(r.outcome) ==> r.driver.phase.scaledState == r.pushed.nextState
    ensures !Ended(r.outcome) ==>
      r.driver.phase.accumulated == (if d.phase.EpisodeStart? then 0.0 else d.phase.accumulated) + r.outcome.reward
  {
    // Episode start: reset the environment and the per-episode accumulators.
    var (env, resetState, scaled, steps, accumulated) :=
      match d.phase
      case EpisodeStart =>
        var (e, s) := w.reset(d.env);
        (e, s, ScaleState(w, s), 0, 0.0)
      case InEpisode(steps, resetState, scaled, acc) =>
        (d.env, resetState, scaled, steps, acc);
    var (drawn, logProb) := w.sampleAction(scaled, d.totalSteps);
    var action := ClampAction(drawn, w.actionLow, w.actionHigh);
    var (env', o) := w.envStep(env, action);
    var scaledNext := ScaleState(w, o.nextState);
    // `scaled_state = scaled_next_state` happens before the push, so the stored
    // state is the scaled next state.
    var t := Transition(scaledNext, action, logProb, StoredReward(w, d.totalSteps, o.reward, resetState, o.nextState), scaledNext, o.done);
    var total := accumulated + o.reward;
    var steps' := steps + 1;
    var phase := if Ended(o) then EpisodeStart else InEpisode(steps', resetState, scaledNext, total);
    var out := Yield(if Ended(o) then Some(total) else None, steps', d.totalSteps + 1);
    StepResult(Driver(env', phase, d.totalSteps + 1), Push(buf, t), out, t, o)
  }

  /** The raw observation of the episode a step belongs to: the one the reset returns
      at an episode's start, else the one recorded then. */
  function EpisodeState<E>(w: World<E>, d: Driver<E>): Vec
  {
    match d.phase
    case EpisodeStart => w.reset(d.env).1
    case InEpisode(_, resetState, _, _) => resetState
  }

  /** The stored reward of every step is computed, with the shaper and scaler of that
      step, from the raw reward and the raw next state the environment returned, and
      from the episode's FIRST raw state, not the state the action was taken in. */
  lemma StepStoresShapedReward<E>(w: World<E>, d: Driver<E>, buf: Buffer)
    ensures Step(w, d, buf).pushed.reward
         == StoredReward(w, d.totalSteps, Step(w, d, buf).outcome.reward, EpisodeState(w, d), Step(w, d, buf).outcome.nextState)
    ensures d.phase.InEpisode? ==> Step(w, d, buf).driver.phase.EpisodeStart? || Step(w, d, buf).driver.phase.resetState == d.phase.resetState
  {
  }

  /** The outcome of pulling `k` steps: the final driver and buffer and the yields in
      order. */
  datatype Collected<!E> = Collected(driver: Driver<E>, buffer: Buffer, outs: seq<Yield>, pushed: seq<Transition>)

  /** Pull `k` steps, as the training loop's `for r in range(rollout_buffer_size)`. */
  function Collect<E>(w: World<E>, d: Driver<E>, buf: Buffer, k: nat): (c: Collected<E>)
    ensures |c.outs| == k && |c.pushed| == k
    ensures c.buffer.capacity == buf.capacity
    decreases k
  {
    if k == 0 then Collected(d, buf, [], [])
    else
      var r := Step(w, d, buf);
      var rest := Collect(w, r.driver, r.buffer, k - 1);
      Collected(rest.driver, rest.buffer, [r.out] + rest.outs, [r.pushed] + rest.pushed)
  }

  /** Step counts of the episodes that ended among the yields. */
  function CompletedSteps(ys: seq<Yield>): nat
  {
    if |ys| == 0 then 0
    else (if ys[0].totalReward.Some? then ys[0].steps else 0) + CompletedSteps(ys[1..])
  }

  /** Pulling `k` steps pushes exactly the `k` yielded tuples, advances the total step
      count by `k`, and every step is accounted for: the steps of the episodes that
      ended plus the steps of the episode now in progress equal the steps that were in
      progress before plus `k`. */
  lemma {:induction false} CollectAccounting<E>(w: World<E>, d: Driver<E>, buf: Buffer, k: nat)
    requires Valid(buf)
    ensures Collect(w, d, buf, k).buffer == PushAll(buf, Collect(w, d, buf, k).pushed)
    ensures Collect(w, d, buf, k).driver.totalSteps == d.totalSteps + k
    ensures CompletedSteps(Collect(w, d, buf, k).outs) + InProgress(Collect(w, d, buf, k).driver.phase)
         == InProgress(d.phase) + k
    ensures forall i :: 0 <= i < k ==> Collect(w, d, buf, k).outs[i].totalSteps == d.totalSteps + i + 1
    decreases k
  {
    if k > 0 {
      var r := Step(w, d, buf);
      CollectAccounting(w, r.driver, r.buffer, k - 1);
      var c := Collect(w, d, buf, k);
      var rest := Collect(w, r.driver, r.buffer, k - 1);
      assert c.outs == [r.out] + rest.outs && c.driver == rest.driver;
      forall i | 0 <= i < k
        ensures c.outs[i].totalSteps == d.totalSteps + i + 1
      {
        if i > 0 {
          assert c.outs[i] == rest.outs[i - 1];
        }
      }
    }
  }

  /** Every tuple the driver ever stores has its state field equal to its next-state
      field, so a buffer filled only by the driver keeps that property. */
  predicate StateIsNextState(items: seq<Transition>)
  {
    forall i :: 0 <= i < |items| ==> items[i].state == items[i].nextState
  }

  lemma {:induction false} CollectStoresStateAsNextState<E>(w: World<E>, d: Driver<E>, buf: Buffer, k: nat)
    requires StateIsNextState(buf.items)
    ensures StateIsNextState(Collect(w, d, buf, k).buffer.items)
    decreases k
  {
    if k > 0 {
      var r := Step(w, d, buf);
      PushKeepsStateIsNextState(buf, r.pushed);
      CollectStoresStateAsNextState(w, r.driver, r.buffer, k - 1);
    }
  }

  /** Pushing a tuple whose state is its next state onto such a buffer keeps it so. */
  lemma PushKeepsStateIsNextState(buf: Buffer, t: Transition)
    requires StateIsNextState(buf.items) && t.state == t.nextState
    ensures StateIsNextState(Push(buf, t).items)
  {
    var all := buf.items + [t];
    assert StateIsNextState(all);
    assert Push(buf, t).items == Last(all, buf.capacity);
  }

  /** An epoch's collection: clearing the buffer and pulling as many steps as its
      capacity leaves it exactly full, holding the pushed tuples in push order. */
  lemma CollectFillsClearedBuffer<E>(w: World<E>, d: Driver<E>, buf: Buffer)
    ensures Len(Collect(w, d, Clear(buf), buf.capacity).buffer) == buf.capacity
    ensures Collect(w, d, Clear(buf), buf.capacity).buffer.items == Collect(w, d, Clear(buf), buf.capacity).pushed
  {
    var c := Collect(w, d, Clear(buf), buf.capacity);
    CollectAccounting(w, d, Clear(buf), buf.capacity);
    PushAllKeepsNewest(Clear(buf), c.pushed);
    assert Clear(buf).items + c.pushed == c.pushed;
  }
}

=== FILE: rollout_buffer.dfy ===
/** The bounded FIFO store of transitions (`RolloutBuffer`, a `deque(maxlen=capacity)`)
    and the column view of a sampled mini-batch. */
module RolloutBuffer {
  import opened Wrappers

  /** A state or action vector. */
  type Vec = seq<real>

  /** One stored 6-tuple `(state, action, log_prob, reward, next_state, done)`. */
  datatype Transition = Transition(
    state: Vec,
    action: Vec,
    logProb: real,
    reward: real,
    nextState: Vec,
    done: bool)

  /** The deque: its `maxlen` and its contents, oldest first. */
  datatype Buffer = Buffer(capacity: nat, items: seq<Transition>)

  /** The six columns that `zip(*...)` produces, position i of each from the i-th tuple. */
  datatype Batch = Batch(
    states: seq<Vec>,
    actions: seq<Vec>,
    logProbs: seq<real>,
    rewards: seq<real>,
    nextStates: seq<Vec>,
    dones: seq<bool>)
  {
    /** All six columns have one entry per sampled tuple. */
    predicate Aligned()
    {
      && |actions| == |states|
      && |logProbs| == |states|
      && |rewards| == |states|
      && |nextStates| == |states|
      && |dones| == |states|
    }

    function Size(): nat { |states| }
  }

  /** A sample: the buffer positions drawn and the columns read at those positions. */
  datatype Draw = Draw(indices: seq<int>, batch: Batch)

  predicate Valid(b: Buffer)
  {
    |b.items| <= b.capacity
  }

  /** `RolloutBuffer(capacity)`: an empty deque. */
  function Init(capacity: nat): (b: Buffer)
    ensures Valid(b) && Len(b) == 0 && b.capacity == capacity
  {
    Buffer(capacity, [])
  }

  /** `len(buffer)`: within `maxlen` exactly when the buffer is well formed. */
  function Len(b: Buffer): (r: nat)
    ensures r <= b.capacity <==> Valid(b)
    ensures r == 0 <==> b.items == []
  {
    |b.items|
  }

  /** The last `n` elements of `s` (all of `s` when it is shorter). */
  function Last<T>(s: seq<T>, n: nat): (r: seq<T>)
    ensures |r| == if |s| <= n then |s| else n
  {
    if |s| <= n then s else s[|s| - n..]
  }

  /** `deque.append` on a bounded deque: the new tuple goes last and, if that makes
      the deque longer than its `maxlen`, the oldest entry falls off the front. */
  function Push(b: Buffer, t: Transition): (r: Buffer)
    ensures r.capacity == b.capacity
    ensures Len(r) == if Len(b) + 1 <= b.capacity then Len(b) + 1 else b.capacity
    ensures Valid(r)
    ensures Len(b) < b.capacity ==> r.items == b.items + [t]
    ensures 0 < Len(b) == b.capacity ==> r.items == b.items[1..] + [t]
    ensures b.capacity > 0 ==> r.items[|r.items| - 1] == t
  {
    Buffer(b.capacity, Last(b.items + [t], b.capacity))
  }

  /** `clear()`: no contents, same `maxlen`. */
  function Clear(b: Buffer): (r: Buffer)
    ensures Len(r) == 0 && r.capacity == b.capacity && Valid(r)
  {
    Buffer(b.capacity, [])
  }

  /** Pushing the tuples of `ts` one after another. */
  function PushAll(b: Buffer, ts: seq<Transition>): Buffer
    decreases |ts|
  {
    if |ts| == 0 then b else PushAll(Push(b, ts[0]), ts[1..])
  }

  /** Whatever was pushed, the deque holds exactly the newest `capacity` tuples of
      its old contents followed by the pushed ones. */
  lemma {:induction false} PushAllKeepsNewest(b: Buffer, ts: seq<Transition>)
    requires Valid(b)
    ensures PushAll(b, ts).capacity == b.capacity
    ensures PushAll(b, ts).items == Last(b.items + ts, b.capacity)
    decreases |ts|
  {
    if |ts| > 0 {
      var b1 := Push(b, ts[0]);
      assert b1.items == Last(b.items + [ts[0]], b.capacity);
      PushAllKeepsNewest(b1, ts[1..]);
      assert PushAll(b, ts) == PushAll(b1, ts[1..]);
      LastOfLastSeq(b.items + [ts[0]], ts[1..], b.capacity);
      assert b.items + [ts[0]] + ts[1..] == b.items + ts;
    }
  }

  /** Cutting to the newest `n` before appending more does not change the newest `n`
      after appending. */
  lemma {:induction false} LastOfLastSeq<T>(s: seq<T>, u: seq<T>, n: nat)
    ensures Last(Last(s, n) + u, n) == Last(s + u, n)
  {
    if |s| > n {
      var k := |s| - n;
      var t := s[k..] + u;
      assert Last(s, n) == s[k..];
      if |u| == 0 {
        assert t == s[k..] && s + u == s;
      } else {
        assert Last(t, n) == t[|u|..];
        assert Last(s + u, n) == (s + u)[k + |u|..];
        forall j | |u| <= j < |t|
          ensures t[j] == (s + u)[k + j]
        {
          if j < n {
            assert t[j] == s[k + j];
          } else {
            assert t[j] == u[j - n];
          }
        }
      }
    }
  }

  /** After `capacity + m` pushes into an empty deque it holds exactly the most recent
      `capacity` tuples, in push order. */
  lemma OverfillKeepsMostRecent(capacity: nat, ts: seq<Transition>)
    requires |ts| >= capacity
    ensures PushAll(Init(capacity), ts).items == ts[|ts| - capacity..]
    ensures Len(PushAll(Init(capacity), ts)) == capacity
  {
    var b := Init(capacity);
    PushAllKeepsNewest(b, ts);
    assert b.items + ts == ts;
    var newest := Last(ts, capacity);
    assert newest == ts[|ts| - capacity..] by {
      if |ts| <= capacity {
        assert ts[|ts| - capacity..] == ts;
      }
    }
  }

  /** Pairwise-distinct positions of a sequence of length `n`. */
  predicate DistinctIndices(indices: seq<int>, n: nat)
  {
    && (forall i :: 0 <= i < |indices| ==> 0 <= indices[i] < n)
    && (forall i, j :: 0 <= i < j < |indices| ==> indices[i] != indices[j])
  }

  /** The tuples stored at the given positions, in the order drawn. */
  function Select(items: seq<Transition>, indices: seq<int>): (r: seq<Transition>)
    requires DistinctIndices(indices, |items|)
    ensures |r| == |indices|
    ensures forall i :: 0 <= i < |r| ==> r[i] == items[indices[i]]
  {
    seq(|indices|, i requires 0 <= i < |indices| => items[indices[i]])
  }

  /** `zip(*tuples)`: split a sequence of tuples into six columns. */
  function Unzip(ts: seq<Transition>): (b: Batch)
    ensures b.Aligned() && b.Size() == |ts|
  {
    Batch(
      seq(|ts|, i requires 0 <= i < |ts| => ts[i].state),
      seq(|ts|, i requires 0 <= i < |ts| => ts[i].action),
      seq(|ts|, i requires 0 <= i < |ts| => ts[i].logProb),
      seq(|ts|, i requires 0 <= i < |ts| => ts[i].reward),
      seq(|ts|, i requires 0 <= i < |ts| => ts[i].nextState),
      seq(|ts|, i requires 0 <= i < |ts| => ts[i].done))
  }

  /** Re-assemble the tuples from aligned columns. */
  function Zip(b: Batch): (ts: seq<Transition>)
    requires b.Aligned()
    ensures |ts| == b.Size()
  {
    seq(|b.states|, i requires 0 <= i < |b.states| =>
      Transition(b.states[i], b.actions[i], b.logProbs[i], b.rewards[i], b.nextStates[i], b.dones[i]))
  }

  /** The columns are aligned: position i of every column comes from the i-th tuple,
      so zipping them back gives the tuples again. */
  lemma UnzipZip(ts: seq<Transition>)
    ensures Zip(Unzip(ts)) == ts
  {
  }

  /** Conversely, aligned columns are the columns of their own zip. */
  lemma ZipUnzip(b: Batch)
    requires b.Aligned()
    ensures Unzip(Zip(b)) == b
  {
  }

  /** What a successful `sample(k)` returns: `k` pairwise-distinct positions of the
      current contents and the columns of the tuples at those positions. */
  predicate IsDraw(items: seq<Transition>, k: int, d: Draw)
  {
    && |d.indices| == k
    && DistinctIndices(d.indices, |items|)
    && d.batch == Unzip(Select(items, d.indices))
  }

  const SampleTooLarge := ValueError("Sample larger than population or is negative")
  const EmptyUnpack := ValueError("not enough values to unpack (expected 6, got 0)")

  /** `sample(k)`: `random.sample` draws `k` distinct positions (the draw is chosen
      nondeterministically here) and `zip(*...)` splits them into columns. A `k` that
      is negative or above the length makes `random.sample` raise; `k == 0` yields no
      tuples, and unpacking the empty `zip()` into six names raises. */
  method Sample(b: Buffer, k: int) returns (r: Result<Draw>)
    ensures r.Ok? <==> 0 < k <= Len(b)
    ensures r.Ok? ==> IsDraw(b.items, k, r.value)
    ensures r.Ok? ==> r.value.batch.Aligned() && r.value.batch.Size() == k
    ensures (k < 0 || k > Len(b)) ==> r == Err(SampleTooLarge)
    ensures k == 0 ==> r == Err(EmptyUnpack)
  {
    if k < 0 || k > |b.items| {
      return Err(SampleTooLarge);
    }
    if k == 0 {
      return Err(EmptyUnpack);
    }
    var first := seq(k, i => i);
    assert DistinctIndices(first, |b.items|);
    var indices :| |indices| == k && DistinctIndices(indices, |b.items|);
    r := Ok(Draw(indices, Unzip(Select(b.items, indices))));
  }

  /** Every sampled tuple is a member of the current contents. */
  lemma DrawMembers(items: seq<Transition>, k: int, d: Draw)
    requires IsDraw(items, k, d)
    ensures forall i :: 0 <= i < k ==> Zip(d.batch)[i] in items
  {
    UnzipZip(Select(items, d.indices));
  }
}

=== FILE: setup.dfy ===
/** The learning-rate scheduler dispatch of `setup_networks` and `rescale_action`. */
module Setup {
  import opened Wrappers

  /** The scheduler `setup_networks` builds. */
  datatype Scheduler =
    | NoScheduler
    | ExponentialLR(gamma: real)
    | CosineAnnealingLR(tMax: int)

  /** The entries of `optimizer_config` the dispatch reads. */
  datatype SchedulerConfig = SchedulerConfig(scheduler: Option<string>, exponentialGamma: real, cosineTMax: int)

  /** `None` builds no scheduler, `"exponential"` and `"cosine"` build theirs from
      their own config entry, and any other name raises `ValueError`. */
  function SetupScheduler(cfg: SchedulerConfig): (r: Result<Scheduler>)
    ensures r == Ok(NoScheduler) <==> cfg.scheduler.None?
    ensures r.Ok? <==> cfg.scheduler.None? || cfg.scheduler.value == "exponential" || cfg.scheduler.value == "cosine"
    ensures r.Ok? && r.value.ExponentialLR? ==> cfg.scheduler == Some("exponential") && r.value.gamma == cfg.exponentialGamma
    ensures r.Ok? && r.value.CosineAnnealingLR? ==> cfg.scheduler == Some("cosine") && r.value.tMax == cfg.cosineTMax
    ensures r.Err? ==> r.error == ValueError("Scheduler " + cfg.scheduler.value + " not recognized.")
  {
    match cfg.scheduler
    case None => Ok(NoScheduler)
    case Some(name) =>
      if name == "exponential" then Ok(ExponentialLR(cfg.exponentialGamma))
      else if name == "cosine" then Ok(CosineAnnealingLR(cfg.cosineTMax))
      else Err(ValueError("Scheduler " + name + " not recognized."))
  }

  /** The configuration that selects a given scheduler. */
  function ConfigFor(s: Scheduler, exponentialGamma: real, cosineTMax: int): SchedulerConfig
  {
    match s
    case NoScheduler => SchedulerConfig(None, exponentialGamma, cosineTMax)
    case ExponentialLR(g) => SchedulerConfig(Some("exponential"), g, cosineTMax)
    case CosineAnnealingLR(t) => SchedulerConfig(Some("cosine"), exponentialGamma, t)
  }

  /** Every scheduler is reachable: configuring for it and dispatching gives it back. */
  lemma DispatchRoundTrip(s: Scheduler, exponentialGamma: real, cosineTMax: int)
    ensures SetupScheduler(ConfigFor(s, exponentialGamma, cosineTMax)) == Ok(s)
  {
  }

  /** `action_min + (predicted_action - (-1)) / 2 * (action_max - action_min)`: the
      affine map of [-1, 1] onto [action_min, action_max]. */
  function RescaleAction(predicted: real, actionMin: real, actionMax: real): (r: real)
    ensures predicted == -1.0 ==> r == actionMin
    ensures predicted == 1.0 ==> r == actionMax
  {
    actionMin + (predicted - (-1.0)) / 2.0 * (actionMax - actionMin)
  }

  /** A prediction in [-1, 1] lands in [action_min, action_max]. */
  lemma RescaleBounds(predicted: real, actionMin: real, actionMax: real)
    requires actionMin <= actionMax && -1.0 <= predicted <= 1.0
    ensures actionMin <= RescaleAction(predicted, actionMin, actionMax) <= actionMax
  {
    var t := (predicted - (-1.0)) / 2.0;
    var w := actionMax - actionMin;
    assert 0.0 <= t <= 1.0;
    ScaleWithin(t, w);
    assert RescaleAction(predicted, actionMin, actionMax) == actionMin + t * w;
  }

  lemma ScaleWithin(t: real, w: real)
    requires 0.0 <= t <= 1.0 && 0.0 <= w
    ensures 0.0 <= t * w <= w
  {
    assert w - t * w == (1.0 - t) * w;
  }

  /** The inverse map, from [action_min, action_max] back to [-1, 1]. */
  function NormalizeAction(action: real, actionMin: real, actionMax: real): real
    requires actionMin != actionMax
  {
    2.0 * (action - actionMin) / (actionMax - actionMin) - 1.0
  }

  /** On a non-degenerate range the rescaling is invertible, in both directions. */
  lemma RescaleRoundTrip(p: real, a: real, actionMin: real, actionMax: real)
    requires actionMin != actionMax
    ensures NormalizeAction(RescaleAction(p, actionMin, actionMax), actionMin, actionMax) == p
    ensures RescaleAction(NormalizeAction(a, actionMin, actionMax), actionMin, actionMax) == a
  {
    var w := actionMax - actionMin;
    var x := (p - (-1.0)) / 2.0;
    assert 2.0 * x == p + 1.0;
    assert RescaleAction(p, actionMin, actionMax) - actionMin == x * w;
    CancelWidth(x, w);
    var d := a - actionMin;
    var y := 2.0 * d / w;
    assert NormalizeAction(a, actionMin, actionMax) - (-1.0) == y;
    HalveQuotient(d, w);
    CancelWidth2(d, w);
  }

  lemma CancelWidth(x: real, w: real)
    requires w != 0.0
    ensures 2.0 * (x * w) / w == 2.0 * x
  {
    assert 2.0 * (x * w) == (2.0 * x) * w;
  }

  lemma HalveQuotient(d: real, w: real)
    requires w != 0.0
    ensures (2.0 * d / w) / 2.0 == d / w
  {
    assert 2.0 * d / w == 2.0 * (d / w);
  }

  lemma CancelWidth2(d: real, w: real)
    requires w != 0.0
    ensures d / w * w == d
  {
  }
}

=== FILE: surrogate.dfy ===
/** The clipped surrogate policy loss (`surrogate`) and the adaptive value-loss
    coefficient of `train_networks`. The importance ratio `exp(new - old)` comes in as
    an input, since `exp` and the policy's log-probabilities are not modelled. */
module Surrogate {
  import opened Numeric

  /** `min(ratio * adv, clamp(ratio, 1 - eps, 1 + eps) * adv)` for one sample: the
      smaller of the unclipped and the clipped surrogate. */
  function ClippedTerm(ratio: real, adv: real, eps: real): (r: real)
    ensures r <= ratio * adv
    ensures r <= Clamp(ratio, 1.0 - eps, 1.0 + eps) * adv
    ensures r == ratio * adv || r == Clamp(ratio, 1.0 - eps, 1.0 + eps) * adv
  {
    Min(ratio * adv, Clamp(ratio, 1.0 - eps, 1.0 + eps) * adv)
  }

  /** Where the clip bites: inside the trust region the term is unclipped; a positive
      advantage is capped at ratio `1 + eps` and a negative one at `1 - eps`; and the
      clip never raises the term above the unclipped one on the other side. */
  lemma ClippedTermRegions(ratio: real, adv: real, eps: real)
    ensures 1.0 - eps <= ratio <= 1.0 + eps ==> ClippedTerm(ratio, adv, eps) == ratio * adv
    ensures adv > 0.0 && ratio > 1.0 + eps ==> ClippedTerm(ratio, adv, eps) == (1.0 + eps) * adv
    ensures adv < 0.0 && eps >= 0.0 && ratio < 1.0 - eps ==> ClippedTerm(ratio, adv, eps) == (1.0 - eps) * adv
    ensures adv >= 0.0 && ratio <= 1.0 + eps ==> ClippedTerm(ratio, adv, eps) == ratio * adv
    ensures adv <= 0.0 && ratio >= 1.0 - eps ==> ClippedTerm(ratio, adv, eps) == ratio * adv
  {
    var c := Clamp(ratio, 1.0 - eps, 1.0 + eps);
    var t := ClippedTerm(ratio, adv, eps);
    assert t == Min(ratio * adv, c * adv);
    if adv >= 0.0 {
      if ratio <= 1.0 + eps {
        assert ratio <= c;
        MulMonotone(ratio, c, adv);
        assert t == ratio * adv;
      } else {
        assert c == 1.0 + eps;
        assert c * adv == (1.0 + eps) * adv;
        MulMonotone(1.0 + eps, ratio, adv);
        assert t == (1.0 + eps) * adv;
      }
    }
    if adv <= 0.0 {
      if ratio >= 1.0 - eps {
        assert c <= ratio;
        MulAntitone(c, ratio, adv);
        assert t == ratio * adv;
      } else if eps >= 0.0 {
        assert c == 1.0 - eps;
        assert c * adv == (1.0 - eps) * adv;
        MulAntitone(ratio, 1.0 - eps, adv);
        assert t == (1.0 - eps) * adv;
      }
    }
  }

  lemma MulMonotone(a: real, b: real, k: real)
    requires a <= b && k >= 0.0
    ensures a * k <= b * k
  {
  }

  lemma MulAntitone(a: real, b: real, k: real)
    requires a <= b && k <= 0.0
    ensures b * k <= a * k
  {
  }

  /** The per-sample terms `torch.min(surr1, surr2)`. */
  function ClippedTerms(ratios: seq<real>, advs: seq<real>, eps: real): (r: seq<real>)
    requires |ratios| == |advs|
    ensures |r| == |ratios|
  {
    seq(|ratios|, i requires 0 <= i < |ratios| => ClippedTerm(ratios[i], advs[i], eps))
  }

  /** The unclipped products `ratio * adv`. */
  function Products(ratios: seq<real>, advs: seq<real>): (r: seq<real>)
    requires |ratios| == |advs|
    ensures |r| == |ratios|
  {
    seq(|ratios|, i requires 0 <= i < |ratios| => ratios[i] * advs[i])
  }

  /** The ratios clamped to the trust region `[1 - eps, 1 + eps]`. */
  function ClampedRatios(ratios: seq<real>, eps: real): (r: seq<real>)
    ensures |r| == |ratios|
  {
    seq(|ratios|, i requires 0 <= i < |ratios| => Clamp(ratios[i], 1.0 - eps, 1.0 + eps))
  }

  /** `-torch.min(surr1, surr2).mean()`, the first component `surrogate` returns. It
      is never below the loss of the clipped term alone, `-mean(clamp(ratio) * adv)`;
      `PolicyLossIsPessimistic` gives the same for the unclipped term. */
  function PolicyLoss(ratios: seq<real>, advs: seq<real>, eps: real): (r: real)
    requires |ratios| == |advs| > 0
    ensures r >= -Mean(Products(ClampedRatios(ratios, eps), advs))
  {
    var terms, clipped := ClippedTerms(ratios, advs, eps), Products(ClampedRatios(ratios, eps), advs);
    SumMonotone(terms, clipped);
    DivideMonotone(Sum(terms), Sum(clipped), |ratios| as real);
    -Mean(terms)
  }

  /** The clipped objective is a pessimistic bound: the policy loss is never below the
      unclipped loss `-mean(ratio * adv)`. */
  lemma PolicyLossIsPessimistic(ratios: seq<real>, advs: seq<real>, eps: real)
    requires |ratios| == |advs| > 0
    ensures PolicyLoss(ratios, advs, eps) >= -Mean(Products(ratios, advs))
  {
    var terms, prods := ClippedTerms(ratios, advs, eps), Products(ratios, advs);
    SumMonotone(terms, prods);
    DivideMonotone(Sum(terms), Sum(prods), |ratios| as real);
  }

  lemma DivideMonotone(a: real, b: real, n: real)
    requires a <= b && n > 0.0
    ensures a / n <= b / n
  {
  }

  /** When every ratio lies inside the trust region `[1 - eps, 1 + eps]` the clip has
      no effect: the policy loss is exactly the unclipped `-mean(ratio * adv)`. */
  lemma PolicyLossInsideTrustRegion(ratios: seq<real>, advs: seq<real>, eps: real)
    requires |ratios| == |advs| > 0
    requires forall i :: 0 <= i < |ratios| ==> 1.0 - eps <= ratios[i] <= 1.0 + eps
    ensures PolicyLoss(ratios, advs, eps) == -Mean(Products(ratios, advs))
  {
    forall i | 0 <= i < |ratios|
      ensures ClippedTerms(ratios, advs, eps)[i] == Products(ratios, advs)[i]
    {
      ClippedTermRegions(ratios[i], advs[i], eps);
    }
    assert ClippedTerms(ratios, advs, eps) == Products(ratios, advs);
  }

  /** The additive guard in `policy_loss / (value_loss + 1e-10)`. */
  const RatioEpsilon: real := 1.0e-10

  /** The bounds `vf_coef` is clamped to after each update. */
  const MinCoef: real := 0.1
  const MaxCoef: real := 10.0

  /** `policy_loss / (value_loss + 1e-10)`; Python raises on a zero divisor. For a
      non-negative value loss the ratio crosses the adaptation thresholds exactly when
      the policy loss outweighs 10 times, or falls below a tenth of, the guarded value
      loss. */
  function LossRatio(policyLoss: real, valueLoss: real): (r: real)
    requires valueLoss + RatioEpsilon != 0.0
    ensures valueLoss >= 0.0 ==> (r > 10.0 <==> policyLoss > 10.0 * (valueLoss + RatioEpsilon))
    ensures valueLoss >= 0.0 ==> (r < 0.1 <==> policyLoss < 0.1 * (valueLoss + RatioEpsilon))
  {
    var q := policyLoss / (valueLoss + RatioEpsilon);
    if valueLoss < 0.0 then q
    else
      QuotientThreshold(policyLoss, valueLoss + RatioEpsilon, 10.0);
      QuotientThreshold(policyLoss, valueLoss + RatioEpsilon, 0.1);
      q
  }

  lemma QuotientThreshold(a: real, d: real, t: real)
    requires d > 0.0
    ensures a / d > t <==> a > t * d
    ensures a / d < t <==> a < t * d
  {
    assert a == (a / d) * d;
  }

  /** One adaptive update: multiply by 1.1 when the loss ratio is above 10, by 0.9
      when it is below 0.1, then clamp to [0.1, 10]. */
  function AdaptCoef(coef: real, lossRatio: real): (r: real)
    ensures MinCoef <= r <= MaxCoef
    ensures lossRatio > 10.0 ==> r == Clamp(1.1 * coef, MinCoef, MaxCoef)
    ensures lossRatio < 0.1 ==> r == Clamp(0.9 * coef, MinCoef, MaxCoef)
    ensures 0.1 <= lossRatio <= 10.0 ==> r == Clamp(coef, MinCoef, MaxCoef)
  {
    var grown := if lossRatio > 10.0 then coef * 1.1 else coef;
    var shrunk := if lossRatio < 0.1 then grown * 0.9 else grown;
    Min(Max(shrunk, MinCoef), MaxCoef)
  }

  /** The coefficient after each of a run of updates starting from `coef`. */
  function CoefTrace(coef: real, lossRatios: seq<real>): (r: seq<real>)
    ensures |r| == |lossRatios|
    ensures forall i :: 0 <= i < |r| ==> MinCoef <= r[i] <= MaxCoef
    ensures |r| > 0 ==> r[0] == AdaptCoef(coef, lossRatios[0])
    decreases |lossRatios|
  {
    if |lossRatios| == 0 then []
    else
      var next := AdaptCoef(coef, lossRatios[0]);
      [next] + CoefTrace(next, lossRatios[1..])
  }

  /** Each entry of the trace is one update applied to the entry before it. */
  lemma {:induction false} CoefTraceSteps(coef: real, lossRatios: seq<real>, i: nat)
    requires 0 < i < |lossRatios|
    ensures CoefTrace(coef, lossRatios)[i] == AdaptCoef(CoefTrace(coef, lossRatios)[i - 1], lossRatios[i])
    decreases i
  {
    var next := AdaptCoef(coef, lossRatios[0]);
    if i > 1 {
      CoefTraceSteps(next, lossRatios[1..], i - 1);
    }
  }

  /** While the policy loss dominates (every ratio above 10) the coefficient never
      decreases, and once it reaches 10 it stays there. */
  lemma {:induction false} CoefRisesUnderPolicyDominance(coef: real, lossRatios: seq<real>)
    requires MinCoef <= coef <= MaxCoef
    requires forall i :: 0 <= i < |lossRatios| ==> lossRatios[i] > 10.0
    ensures forall i :: 0 <= i < |lossRatios| ==> coef <= CoefTrace(coef, lossRatios)[i]
    ensures forall i, j :: 0 <= i <= j < |lossRatios| ==> CoefTrace(coef, lossRatios)[i] <= CoefTrace(coef, lossRatios)[j]
    ensures coef == MaxCoef ==> forall i :: 0 <= i < |lossRatios| ==> CoefTrace(coef, lossRatios)[i] == MaxCoef
    decreases |lossRatios|
  {
    if |lossRatios| > 0 {
      var next := AdaptCoef(coef, lossRatios[0]);
      assert coef <= next;
      CoefRisesUnderPolicyDominance(next, lossRatios[1..]);
      var t := CoefTrace(coef, lossRatios);
      assert t[1..] == CoefTrace(next, lossRatios[1..]);
    }
  }

  /** While the value loss dominates (every ratio below 0.1) the coefficient never
      increases, and once it reaches 0.1 it stays there. */
  lemma {:induction false} CoefFallsUnderValueDominance(coef: real, lossRatios: seq<real>)
    requires MinCoef <= coef <= MaxCoef
    requires forall i :: 0 <= i < |lossRatios| ==> lossRatios[i] < 0.1
    ensures forall i :: 0 <= i < |lossRatios| ==> CoefTrace(coef, lossRatios)[i] <= coef
    ensures forall i, j :: 0 <= i <= j < |lossRatios| ==> CoefTrace(coef, lossRatios)[j] <= CoefTrace(coef, lossRatios)[i]
    ensures coef == MinCoef ==> forall i :: 0 <= i < |lossRatios| ==> CoefTrace(coef, lossRatios)[i] == MinCoef
    decreases |lossRatios|
  {
    if |lossRatios| > 0 {
      var next := AdaptCoef(coef, lossRatios[0]);
      assert next <= coef;
      CoefFallsUnderValueDominance(next, lossRatios[1..]);
      var t := CoefTrace(coef, lossRatios);
      assert t[1..] == CoefTrace(next, lossRatios[1..]);
    }
  }

  /** Starting from 1.0, a policy loss of 20 against a value loss of 1 raises the
      coefficient to 1.1. */
  lemma AdaptFromOne()
    ensures LossRatio(20.0, 1.0) > 10.0
    ensures AdaptCoef(1.0, LossRatio(20.0, 1.0)) == 1.1
  {
  }
}

=== FILE: training.dfy ===
/** `train_networks` (its precondition, per-iteration sampling, targets, the adaptive
    value coefficient and the iteration counter) and the epoch loop of `train` that
    alternates rollout collection and training. The networks, the optimiser and the
    loss values are not modelled: each iteration's policy and value losses are
    inputs. */
module Training {
  import opened Wrappers
  import opened Numeric
  import opened Decimal
  import opened RolloutBuffer
  import opened Advantage
  import opened Surrogate
  import Rollout

  /** A value loss (`smooth_l1_loss` or `mse_loss`), which is never negative. */
  type ValueLoss = x: real | 0.0 <= x

  /** The policy loss and value loss observed at one iteration. */
  datatype LossPair = LossPair(policyLoss: real, valueLoss: ValueLoss)

  /** The hyperparameters `train_networks` reads. */
  datatype Hyper = Hyper(batchSize: int, sgdIters: int, gamma: real, tau: real, useGae: bool, vfCoef: real)

  /** One inner iteration: the sample drawn, its return and advantage targets (before
      standardisation) and the value coefficient the total loss used. */
  datatype Iteration = Iteration(draw: Draw, targets: seq<real>, advs: seq<real>, coef: real)

  datatype TrainOutcome = TrainOutcome(iterNum: int, iterations: seq<Iteration>)

  /** The number of iterations `range(sgd_iters)` runs. */
  function Iters(sgdIters: int): nat
  {
    if sgdIters > 0 then sgdIters else 0
  }

  /** The loss ratios of the first `n` iterations. */
  function Ratios(losses: nat -> LossPair, n: nat): (r: seq<real>)
    ensures |r| == n
  {
    seq(n, i requires 0 <= i < n => LossRatio(losses(i).policyLoss, losses(i).valueLoss))
  }

  /** The return and advantage targets of a sampled batch, per branch. */
  predicate TargetsOf(b: Batch, V: Vec -> real, h: Hyper, targets: seq<real>, advs: seq<real>)
    requires b.Aligned() && b.Size() > 0
  {
    && |targets| == b.Size() && |advs| == b.Size()
    && if h.useGae then
         forall s :: 0 <= s < b.Size() ==>
           && advs[s] == Gae(b.rewards, Masks(b.dones), GaeExt(b, V), h.gamma, h.tau, s)
           && targets[s] == advs[s] + V(b.states[s])
       else
         && targets[b.Size() - 1] == 0.0
         && (forall s :: 0 <= s < b.Size() - 1 ==> targets[s] == OneStepTarget(b, V, h.gamma, s + 1))
         && (forall s :: 0 <= s < b.Size() ==> advs[s] == OneStepTarget(b, V, h.gamma, s) - V(b.states[s]))
  }

  /** What each recorded iteration satisfies: a draw of `batch_size` distinct tuples of
      the buffer, with the targets of that batch. */
  predicate GoodIteration(items: seq<Transition>, V: Vec -> real, h: Hyper, it: Iteration)
  {
    && h.batchSize > 0
    && IsDraw(items, h.batchSize, it.draw)
    && TargetsOf(it.draw.batch, V, h, it.targets, it.advs)
  }

  /** Whether the GAE branch gets a one-state batch, whose squeezed values are a
      float, so that `compute_gae` raises `TypeError`. */
  predicate ScalarBatch(h: Hyper)
  {
    h.useGae && h.batchSize == 1
  }

  /** The exception the first iteration raises when it raises one: the sampling
      errors of a batch size outside `1..len`, else the `TypeError` of a one-state
      GAE batch. */
  function IterationFailure(len: nat, h: Hyper): Error
  {
    if h.batchSize == 0 then EmptyUnpack
    else if h.batchSize < 0 || h.batchSize > len then SampleTooLarge
    else ScalarValuesError
  }

  function LengthMessage(len: nat, batchSize: int): string
  {
    "Rollout buffer length " + IntToDecimal(len) + " is less than batch size " + IntToDecimal(batchSize)
  }

  /** One iteration of `train_networks`: sample a batch, compute its targets on the
      configured branch (the GAE branch as written, which raises on a one-state
      batch), and adapt the value coefficient from the observed loss ratio. */
  method SgdIteration(buf: Buffer, h: Hyper, V: Vec -> real, coef: real, lossRatio: real)
    returns (r: Result<Iteration>)
    ensures r.Ok? <==> 0 < h.batchSize <= Len(buf) && !ScalarBatch(h)
    ensures (h.batchSize < 0 || h.batchSize > Len(buf)) ==> r == Err(SampleTooLarge)
    ensures h.batchSize == 0 ==> r == Err(EmptyUnpack)
    ensures 0 < h.batchSize <= Len(buf) && ScalarBatch(h) ==> r == Err(ScalarValuesError)
    ensures r.Ok? ==> GoodIteration(buf.items, V, h, r.value)
    ensures r.Ok? ==> r.value.coef == AdaptCoef(coef, lossRatio)
  {
    var sampled := Sample(buf, h.batchSize);
    if sampled.Err? {
      return Err(sampled.error);
    }
    var draw := sampled.value;
    var b := draw.batch;
    var targets, advs;
    if h.useGae {
      var gae := GaeTargetsAsWritten(b, V, h.gamma, h.tau);
      if gae.Err? {
        return Err(gae.error);
      }
      targets, advs := gae.value.0, gae.value.1;
    } else {
      targets, advs := OneStepTargets(b, V, h.gamma);
    }
    return Ok(Iteration(draw, targets, advs, AdaptCoef(coef, lossRatio)));
  }

  /** The `sgd_iters` iterations of `train_networks`, each adapting `vf_coef` from the
      value the previous one left. The first iteration already fails when `batch_size`
      is not positive or exceeds the buffer, or is 1 on the GAE branch. `V(i)` is the
      value network iteration `i` computes its targets with: `optimizer.step()` moves
      the network between iterations, so each one may see a different function. */
  method Iterate(buf: Buffer, h: Hyper, V: nat -> (Vec -> real), losses: nat -> LossPair)
    returns (r: Result<seq<Iteration>>)
    ensures r.Ok? <==> h.sgdIters <= 0 || (0 < h.batchSize <= Len(buf) && !ScalarBatch(h))
    ensures r.Err? ==> r.error == IterationFailure(Len(buf), h)
    ensures r.Ok? ==> |r.value| == Iters(h.sgdIters)
    ensures r.Ok? ==> forall i :: 0 <= i < |r.value| ==> GoodIteration(buf.items, V(i), h, r.value[i])
    ensures r.Ok? ==> forall i :: 0 <= i < |r.value| ==>
      r.value[i].coef == CoefTrace(h.vfCoef, Ratios(losses, Iters(h.sgdIters)))[i]
  {
    var n := Iters(h.sgdIters);
    var trace := CoefTrace(h.vfCoef, Ratios(losses, n));
    var coef := h.vfCoef;
    var iterations: seq<Iteration> := [];
    var i := 0;
    while i < n
      invariant 0 <= i <= n
      invariant |iterations| == i
      invariant i > 0 ==> 0 < h.batchSize <= Len(buf) && !ScalarBatch(h)
      invariant coef == if i == 0 then h.vfCoef else trace[i - 1]
      invariant forall j :: 0 <= j < i ==> GoodIteration(buf.items, V(j), h, iterations[j])
      invariant forall j :: 0 <= j < i ==> iterations[j].coef == trace[j]
    {
      var step := SgdIteration(buf, h, V(i), coef, LossRatio(losses(i).policyLoss, losses(i).valueLoss));
      match step {
        case Err(e) =>
          return Err(e);
        case Ok(it) =>
          if i > 0 {
            CoefTraceSteps(h.vfCoef, Ratios(losses, n), i);
          }
          coef := it.coef;
          AppendIteration(buf.items, V, h, trace, iterations, it);
          iterations := iterations + [it];
          i := i + 1;
      }
    }
    return Ok(iterations);
  }

  /** Appending an iteration that is good for its own value network and uses its own
      trace entry keeps every recorded iteration so. */
  lemma AppendIteration(items: seq<Transition>, V: nat -> (Vec -> real), h: Hyper, trace: seq<real>,
                        its: seq<Iteration>, it: Iteration)
    requires |its| < |trace|
    requires forall j :: 0 <= j < |its| ==> GoodIteration(items, V(j), h, its[j]) && its[j].coef == trace[j]
    requires GoodIteration(items, V(|its|), h, it) && it.coef == trace[|its|]
    ensures forall j :: 0 <= j < |its| + 1 ==>
      GoodIteration(items, V(j), h, (its + [it])[j]) && (its + [it])[j].coef == trace[j]
  {
    forall j | 0 <= j < |its| + 1
      ensures GoodIteration(items, V(j), h, (its + [it])[j]) && (its + [it])[j].coef == trace[j]
    {
      if j < |its| {
        assert (its + [it])[j] == its[j];
      }
    }
  }

  /** `train_networks`. The buffer must hold at least `batch_size` tuples (an
      `AssertionError` otherwise). Each of the `sgd_iters` iterations samples
      `batch_size` tuples, which fails when `batch_size` is not positive, computes the
      targets, which fails on a one-state GAE batch, and adapts `vf_coef`. The adapted coefficient is a local: it is not
      returned, only the iteration counter, advanced once per iteration, is. */
  method TrainNetworks(iterNum: int, buf: Buffer, h: Hyper, V: nat -> (Vec -> real), losses: nat -> LossPair)
    returns (r: Result<TrainOutcome>)
    ensures r.Ok? <==> Len(buf) >= h.batchSize && (h.sgdIters <= 0 || (h.batchSize > 0 && !ScalarBatch(h)))
    ensures Len(buf) < h.batchSize ==> r == Err(AssertionError(LengthMessage(Len(buf), h.batchSize)))
    ensures Len(buf) >= h.batchSize && h.sgdIters > 0 && h.batchSize < 0 ==> r == Err(SampleTooLarge)
    ensures Len(buf) >= h.batchSize && h.sgdIters > 0 && h.batchSize == 0 ==> r == Err(EmptyUnpack)
    ensures Len(buf) >= h.batchSize && h.sgdIters > 0 && ScalarBatch(h) ==> r == Err(ScalarValuesError)
    ensures r.Ok? ==> r.value.iterNum == iterNum + Iters(h.sgdIters)
    ensures r.Ok? ==> |r.value.iterations| == Iters(h.sgdIters)
    ensures r.Ok? ==> forall i :: 0 <= i < |r.value.iterations| ==> GoodIteration(buf.items, V(i), h, r.value.iterations[i])
    ensures r.Ok? ==> forall i :: 0 <= i < |r.value.iterations| ==>
      r.value.iterations[i].coef == CoefTrace(h.vfCoef, Ratios(losses, Iters(h.sgdIters)))[i]
  {
    if |buf.items| < h.batchSize {
      return Err(AssertionError(LengthMessage(|buf.items|, h.batchSize)));
    }
    var iterated := Iterate(buf, h, V, losses);
    match iterated {
      case Err(e) =>
        r := Err(e);
      case Ok(iterations) =>
        r := Ok(TrainOutcome(iterNum + |iterations|, iterations));
    }
  }

  /** The exception `train_networks` raises on a buffer of `len` tuples when it
      raises one: the length assertion first, then the failing `random.sample` of a
      negative size, then the empty unpacking of a zero-sized batch, then the
      `TypeError` of a one-state GAE batch. */
  function TrainFailure(len: nat, h: Hyper): Error
  {
    if len < h.batchSize then AssertionError(LengthMessage(len, h.batchSize))
    else IterationFailure(len, h)
  }

  /** Whether a checkpoint is saved after `epoch`: one every `checkpoint_interval`
      epochs, counted one-based, and never when the interval is not positive. For a
      positive interval Python's `%` and Dafny's agree. */
  predicate SavesAfter(epoch: int, interval: int)
  {
    interval > 0 && (epoch + 1) % interval == 0
  }

  /** The epochs among `epochs` epochs from `first` after which a checkpoint is saved,
      in order; the file saved after epoch `e` is named by `Checkpoint.CheckpointFile`. */
  function CheckpointSchedule(first: int, epochs: nat, interval: int): (r: seq<int>)
    ensures |r| <= epochs
    ensures forall i :: 0 <= i < |r| ==> first <= r[i] < first + epochs && SavesAfter(r[i], interval)
    decreases epochs
  {
    if epochs == 0 then []
    else
      var rest := CheckpointSchedule(first + 1, epochs - 1, interval);
      if SavesAfter(first, interval) then [first] + rest else rest
  }

  /** Every epoch due for a checkpoint is in the schedule. */
  lemma {:induction false} ScheduleComplete(first: int, epochs: nat, interval: int, e: int)
    requires first <= e < first + epochs && SavesAfter(e, interval)
    ensures e in CheckpointSchedule(first, epochs, interval)
    decreases epochs
  {
    if e > first {
      ScheduleComplete(first + 1, epochs - 1, interval, e);
    }
  }

  /** The schedule grows at its end: running one more epoch appends that epoch, when
      it is due. */
  lemma {:induction false} ScheduleSnoc(first: int, epochs: nat, interval: int)
    ensures CheckpointSchedule(first, epochs + 1, interval)
         == CheckpointSchedule(first, epochs, interval)
            + (if SavesAfter(first + epochs, interval) then [first + epochs] else [])
    decreases epochs
  {
    if epochs > 0 {
      ScheduleSnoc(first + 1, epochs - 1, interval);
    }
  }

  /** With an interval of one, every epoch is saved. */
  lemma {:induction false} EveryEpochSaved(first: int, epochs: nat)
    ensures CheckpointSchedule(first, epochs, 1) == seq(epochs, i => first + i)
    decreases epochs
  {
    if epochs > 0 {
      EveryEpochSaved(first + 1, epochs - 1);
      assert SavesAfter(first, 1);
    }
  }

  /** The rewards of the episodes that completed during a run of rollout steps, in
      the order they completed. */
  function Completed(outs: seq<Rollout.Yield>): (r: seq<real>)
    ensures |r| <= |outs|
  {
    if |outs| == 0 then []
    else
      var earlier := Completed(outs[..|outs| - 1]);
      var last := outs[|outs| - 1];
      if last.totalReward.Some? then earlier + [last.totalReward.value] else earlier
  }

  /** A run in which no step ended an episode records nothing; one in which every
      step did records each step's total, in order. */
  lemma {:induction false} CompletedCases(outs: seq<Rollout.Yield>)
    ensures (forall i :: 0 <= i < |outs| ==> outs[i].totalReward.None?) ==> Completed(outs) == []
    ensures (forall i :: 0 <= i < |outs| ==> outs[i].totalReward.Some?) ==>
      |Completed(outs)| == |outs| && forall i :: 0 <= i < |outs| ==> Completed(outs)[i] == outs[i].totalReward.value
  {
    if |outs| > 0 {
      var init := outs[..|outs| - 1];
      CompletedCases(init);
      assert forall i :: 0 <= i < |init| ==> init[i] == outs[i];
    }
  }

  /** A run of steps records an episode reward exactly when some step ended an
      episode. */
  lemma {:induction false} CompletedNonEmpty(outs: seq<Rollout.Yield>)
    ensures |Completed(outs)| > 0 <==> exists i :: 0 <= i < |outs| && outs[i].totalReward.Some?
  {
    if |outs| > 0 {
      var init := outs[..|outs| - 1];
      CompletedNonEmpty(init);
      if outs[|outs| - 1].totalReward.None? && |Completed(outs)| == 0 {
        forall i | 0 <= i < |outs|
          ensures outs[i].totalReward.None?
        {
          if i < |init| {
            assert outs[i] == init[i];
          }
        }
      }
      if |Completed(init)| > 0 {
        var j :| 0 <= j < |init| && init[j].totalReward.Some?;
        assert outs[j].totalReward.Some?;
      }
    }
  }

  const RewardWindow: nat := 20

  /** `episode_rewards[-20:]`. */
  function Window(xs: seq<real>): (r: seq<real>)
    ensures |r| == if |xs| < RewardWindow then |xs| else RewardWindow
  {
    var n := if |xs| < RewardWindow then |xs| else RewardWindow;
    seq(n, i requires 0 <= i < n => xs[|xs| - n + i])
  }

  /** The window holds the newest rewards, in the order they were recorded. */
  lemma WindowKeepsNewest(xs: seq<real>)
    ensures forall i :: 0 <= i < |Window(xs)| ==> Window(xs)[i] == xs[|xs| - |Window(xs)| + i]
  {
  }

  /** The rolling average `train` computes after every epoch: the mean of the last
      twenty completed-episode rewards, a division by zero when no episode has
      completed yet. */
  function RollingAverage(xs: seq<real>): (r: Result<real>)
    ensures r.Ok? <==> |xs| > 0
    ensures r.Err? ==> r.error == ZeroDivisionError("division by zero")
  {
    if |xs| == 0 then Err(ZeroDivisionError("division by zero")) else Ok(Mean(Window(xs)))
  }

  /** The rolling average stays within any bounds on the rewards it averages. */
  lemma RollingAverageBounds(xs: seq<real>, lo: real, hi: real)
    requires |xs| > 0
    requires forall i :: 0 <= i < |xs| ==> lo <= xs[i] <= hi
    ensures RollingAverage(xs).Ok? && lo <= RollingAverage(xs).value <= hi
  {
    var w := Window(xs);
    WindowKeepsNewest(xs);
    assert forall i :: 0 <= i < |w| ==> lo <= w[i] <= hi;
    MeanBounds(w, lo, hi);
  }

  /** The losses of the iterations of one epoch. */
  function EpochLosses(losses: (int, nat) -> LossPair, epoch: int): (r: nat -> LossPair)
    ensures forall i: nat :: r(i) == losses(epoch, i)
  {
    (i: nat) => losses(epoch, i)
  }

  /** The value network as each iteration of one epoch sees it. */
  function EpochValues(V: (int, nat) -> (Vec -> real), epoch: int): nat -> (Vec -> real)
  {
    (i: nat) => V(epoch, i)
  }

  /** The value coefficients the iterations of `epoch` use, each epoch starting again
      from the configured `vf_coef`. */
  function EpochTrace(h: Hyper, losses: (int, nat) -> LossPair, epoch: int): seq<real>
  {
    CoefTrace(h.vfCoef, Ratios(EpochLosses(losses, epoch), Iters(h.sgdIters)))
  }

  /** The state `train` carries from epoch to epoch: the rollout generator, the
      buffer, the iteration counter, every completed-episode reward, the rolling
      average (`None` standing for the initial `-inf`), the epochs after which a
      checkpoint was saved and, per epoch, the value coefficients its iterations
      used. */
  datatype Progress<!E> = Progress(
    driver: Rollout.Driver<E>, buffer: Buffer, trainIters: int, episodeRewards: seq<real>,
    average: Option<real>, saved: seq<int>, coefs: seq<seq<real>>)

  /** Whether `train_networks` succeeds on a full buffer of the given capacity. */
  predicate TrainsOn(h: Hyper, capacity: nat)
  {
    h.batchSize <= capacity && (h.sgdIters <= 0 || (h.batchSize > 0 && !ScalarBatch(h)))
  }

  /** The rollout of one epoch: `buffer.clear()` and then one `next()` of the
      generator per `range(rollout_buffer_size)`, from the generator's state and the
      buffer before clearing. */
  type Roller<!E> = (Rollout.Driver<E>, Buffer) -> Rollout.Collected<E>

  /** What the epoch loop relies on from the rollout: it keeps the buffer's capacity,
      leaves the buffer full, and advances the total step count by the capacity.
      `CollectRefills` shows the generator's rollout does. */
  ghost predicate Refills<E(!new)>(roll: Roller<E>)
  {
    forall d: Rollout.Driver<E>, b: Buffer ::
      && roll(d, b).buffer.capacity == b.capacity
      && Len(roll(d, b).buffer) == b.capacity
      && roll(d, b).driver.totalSteps == d.totalSteps + b.capacity
  }

  /** The generator's rollout: clear the buffer, then pull as many steps as it holds. */
  function GeneratorRollout<E>(w: Rollout.World<E>): Roller<E>
  {
    (d: Rollout.Driver<E>, b: Buffer) => Rollout.Collect(w, d, Clear(b), b.capacity)
  }

  lemma CollectRefills<E(!new)>(w: Rollout.World<E>)
    ensures Refills(GeneratorRollout(w))
  {
    forall d: Rollout.Driver<E>, b: Buffer
      ensures Len(Rollout.Collect(w, d, Clear(b), b.capacity).buffer) == b.capacity
      ensures Rollout.Collect(w, d, Clear(b), b.capacity).driver.totalSteps == d.totalSteps + b.capacity
    {
      Rollout.CollectAccounting(w, d, Clear(b), b.capacity);
      Rollout.CollectFillsClearedBuffer(w, d, b);
    }
  }

  /** The rollout steps one epoch pulls. */
  function EpochRollout<E>(roll: Roller<E>, p: Progress<E>): Rollout.Collected<E>
  {
    roll(p.driver, p.buffer)
  }

  /** The record after one successful epoch: the rollout continues from where the
      last epoch left it and refills the cleared buffer, the iteration counter
      advances by `sgd_iters`, the completed episodes are recorded, the rolling
      average is recomputed, the checkpoint is recorded when due, and the value
      coefficient is traced afresh from its configured value. */
  function NextProgress<E>(roll: Roller<E>, p: Progress<E>, epoch: int, h: Hyper,
                           losses: nat -> LossPair, interval: int): (r: Progress<E>)
    ensures r.trainIters == p.trainIters + Iters(h.sgdIters)
    ensures r.average.Some? <==> |r.episodeRewards| > 0
    ensures r.average.Some? ==> r.average == Some(RollingAverage(r.episodeRewards).value)
  {
    var c := EpochRollout(roll, p);
    var rewards := p.episodeRewards + Completed(c.outs);
    Progress(c.driver, c.buffer, p.trainIters + Iters(h.sgdIters), rewards,
             if |rewards| > 0 then Some(Mean(Window(rewards))) else None,
             p.saved + (if SavesAfter(epoch, interval) then [epoch] else []),
             p.coefs + [CoefTrace(h.vfCoef, Ratios(losses, Iters(h.sgdIters)))])
  }

  /** An epoch never revises the record: it only appends episode rewards, at most
      one checkpoint and exactly one coefficient trace. */
  lemma NextProgressExtends<E>(roll: Roller<E>, p: Progress<E>, epoch: int, h: Hyper,
                               losses: nat -> LossPair, interval: int)
    ensures var r := NextProgress(roll, p, epoch, h, losses, interval);
      && |p.episodeRewards| <= |r.episodeRewards| && r.episodeRewards[..|p.episodeRewards|] == p.episodeRewards
      && |p.saved| <= |r.saved| <= |p.saved| + 1 && r.saved[..|p.saved|] == p.saved
      && |r.coefs| == |p.coefs| + 1 && r.coefs[..|p.coefs|] == p.coefs
  {
    var r := NextProgress(roll, p, epoch, h, losses, interval);
    assert r.episodeRewards[..|p.episodeRewards|] == p.episodeRewards;
    assert r.saved[..|p.saved|] == p.saved;
    assert r.coefs[..|p.coefs|] == p.coefs;
  }

  /** An epoch's rollout advances the step counter by the buffer's capacity and
      leaves the buffer full of exactly the tuples it pushed. */
  lemma EpochRolloutFills<E(!new)>(roll: Roller<E>, p: Progress<E>)
    requires Refills(roll)
    ensures EpochRollout(roll, p).driver.totalSteps == p.driver.totalSteps + p.buffer.capacity
    ensures Len(EpochRollout(roll, p).buffer) == p.buffer.capacity
    ensures EpochRollout(roll, p).buffer.capacity == p.buffer.capacity
  {
  }

  /** What one epoch ends in: the exception of `train_networks` when the refilled
      buffer cannot supply its batches, a division by zero when no episode reward has
      been recorded yet, and otherwise the next record. */
  function EpochResult<E>(roll: Roller<E>, p: Progress<E>, epoch: int, h: Hyper,
                          losses: nat -> LossPair, interval: int): (r: Result<Progress<E>>)
    ensures r.Ok? <==> TrainsOn(h, p.buffer.capacity) && |p.episodeRewards + Completed(EpochRollout(roll, p).outs)| > 0
    ensures r.Err? ==> r.error == (if TrainsOn(h, p.buffer.capacity) then ZeroDivisionError("division by zero")
                                   else TrainFailure(p.buffer.capacity, h))
    ensures r.Ok? ==> r.value == NextProgress(roll, p, epoch, h, losses, interval)
  {
    if !TrainsOn(h, p.buffer.capacity) then Err(TrainFailure(p.buffer.capacity, h))
    else
      var q := NextProgress(roll, p, epoch, h, losses, interval);
      if |q.episodeRewards| == 0 then Err(ZeroDivisionError("division by zero")) else Ok(q)
  }

  /** `train_networks` as one epoch of `train` sees it: the exception it raises on the
      refilled buffer, or the advanced iteration counter and the value coefficients
      its iterations used. */
  method TrainEpoch(iterNum: int, buf: Buffer, h: Hyper, V: nat -> (Vec -> real), losses: nat -> LossPair)
    returns (r: Result<(int, seq<real>)>)
    ensures r.Ok? <==> TrainsOn(h, Len(buf))
    ensures r.Err? ==> r.error == TrainFailure(Len(buf), h)
    ensures r.Ok? ==> r.value.0 == iterNum + Iters(h.sgdIters)
    ensures r.Ok? ==> r.value.1 == CoefTrace(h.vfCoef, Ratios(losses, Iters(h.sgdIters)))
  {
    var trained := TrainNetworks(iterNum, buf, h, V, losses);
    if trained.Err? {
      return Err(trained.error);
    }
    var its := trained.value.iterations;
    var coefs := seq(|its|, j requires 0 <= j < |its| => its[j].coef);
    return Ok((trained.value.iterNum, coefs));
  }

  /** The exception a failing first epoch raises: `train_networks`' when the
      buffer's capacity cannot supply its batches, else the division by zero of the
      rolling average over no episode. */
  function FirstEpochFailure(h: Hyper, capacity: nat): Error
  {
    if TrainsOn(h, capacity) then ZeroDivisionError("division by zero") else TrainFailure(capacity, h)
  }

  /** One pass of the epoch loop of `train`: clear the buffer, pull as many rollout
      steps as it holds, run `train_networks` with the CONFIGURED `vf_coef` (so the
      adaptation of one epoch does not carry into the next), save a checkpoint on
      schedule, then update the rolling average. */
  method RunEpoch<E(!new)>(roll: Roller<E>, p: Progress<E>, epoch: int, h: Hyper, V: (int, nat) -> (Vec -> real),
                     losses: nat -> LossPair, interval: int)
    returns (r: Result<Progress<E>>)
    requires Refills(roll)
    ensures r == EpochResult(roll, p, epoch, h, losses, interval)
  {
    var collected := roll(p.driver, p.buffer);
    EpochRolloutFills(roll, p);
    var rewards := p.episodeRewards + Completed(collected.outs);
    var trained := TrainEpoch(p.trainIters, collected.buffer, h, EpochValues(V, epoch), losses);
    ghost var next := NextProgress(roll, p, epoch, h, losses, interval);
    match trained {
      case Err(e) =>
        assert !TrainsOn(h, p.buffer.capacity);
        r := Err(e);
      case Ok((iterNum, coefs)) =>
        assert TrainsOn(h, p.buffer.capacity);
        var saved := p.saved + (if SavesAfter(epoch, interval) then [epoch] else []);
        var average := RollingAverage(rewards);
        match average {
          case Err(e) =>
            assert |next.episodeRewards| == 0;
            r := Err(e);
          case Ok(a) =>
            assert next == Progress(collected.driver, collected.buffer, iterNum, rewards, Some(a), saved, p.coefs + [coefs]);
            r := Ok(Progress(collected.driver, collected.buffer, iterNum, rewards, Some(a), saved, p.coefs + [coefs]));
        }
    }
  }

  /** Where the generator and the buffer stand after the rollouts of `k` epochs from
      `d` and `buf`, each continuing from where the one before left them, and the
      rewards of the episodes those rollouts completed, in the order they completed. */
  datatype Rolled<!E> = Rolled(driver: Rollout.Driver<E>, buffer: Buffer, rewards: seq<real>)

  ghost function AfterRollouts<E>(roll: Roller<E>, d: Rollout.Driver<E>, buf: Buffer, k: nat): Rolled<E>
  {
    if k == 0 then Rolled(d, buf, [])
    else
      var prev := AfterRollouts(roll, d, buf, k - 1);
      var c := roll(prev.driver, prev.buffer);
      Rolled(c.driver, c.buffer, prev.rewards + Completed(c.outs))
  }

  /** The rewards recorded by the first `k` epochs' rollouts are never revised: later
      epochs only append the rewards of the episodes they complete. */
  lemma {:induction false} RolloutRewardsGrow<E>(roll: Roller<E>, d: Rollout.Driver<E>, buf: Buffer, k: nat, j: nat)
    requires k <= j
    ensures |AfterRollouts(roll, d, buf, k).rewards| <= |AfterRollouts(roll, d, buf, j).rewards|
    ensures AfterRollouts(roll, d, buf, j).rewards[..|AfterRollouts(roll, d, buf, k).rewards|]
         == AfterRollouts(roll, d, buf, k).rewards
    decreases j
  {
    if k < j {
      RolloutRewardsGrow(roll, d, buf, k, j - 1);
      var a := AfterRollouts(roll, d, buf, k).rewards;
      var b := AfterRollouts(roll, d, buf, j - 1).rewards;
      var c := AfterRollouts(roll, d, buf, j).rewards;
      assert c[..|b|] == b;
      assert c[..|a|] == b[..|a|];
    }
  }

  /** Whether the first epoch of a run from driver `d` and buffer `buf` completes at
      least one episode, without which the rolling average divides by zero. */
  ghost predicate FirstEpochCompletes<E>(roll: Roller<E>, d: Rollout.Driver<E>, buf: Buffer)
  {
    |Completed(roll(d, buf).outs)| > 0
  }

  /** The record after `k` successful epochs of a run started at `lastEpoch` from
      driver `d` and buffer `buf`: the generator, the buffer and the episode rewards
      that the `k` rollouts left, and the rolling average of those rewards. */
  ghost predicate Reached<E>(roll: Roller<E>, d: Rollout.Driver<E>, buf: Buffer, h: Hyper, k: nat, p: Progress<E>)
  {
    && p.buffer.capacity == buf.capacity
    && p.driver == AfterRollouts(roll, d, buf, k).driver
    && p.buffer == AfterRollouts(roll, d, buf, k).buffer
    && p.episodeRewards == AfterRollouts(roll, d, buf, k).rewards
    && (k == 0 ==> p == Progress(d, buf, 0, [], None, [], []))
    && (k > 0 ==>
          && TrainsOn(h, buf.capacity)
          && FirstEpochCompletes(roll, d, buf)
          && |p.episodeRewards| > 0
          && Len(p.buffer) == buf.capacity
          && p.average == Some(RollingAverage(p.episodeRewards).value))
  }

  /** `k` rounds of `m`, counted one round at a time; `RoundsIsProduct` shows it is
      `k * m`. */
  function Rounds(k: nat, m: nat): nat
  {
    if k == 0 then 0 else Rounds(k - 1, m) + m
  }

  lemma {:induction false} RoundsIsProduct(k: nat, m: nat)
    ensures Rounds(k, m) == k * m
  {
    if k > 0 {
      RoundsIsProduct(k - 1, m);
      assert (k - 1) * m + m == k * m;
    }
  }

  /** The counters after `k` epochs. */
  ghost predicate Counted<E>(d: Rollout.Driver<E>, buf: Buffer, h: Hyper, k: nat, p: Progress<E>)
  {
    && p.trainIters == Rounds(k, Iters(h.sgdIters))
    && p.driver.totalSteps == d.totalSteps + Rounds(k, buf.capacity)
  }

  /** The checkpoints saved and the value coefficients used in the first `k` epochs. */
  ghost predicate Recorded<E>(lastEpoch: int, h: Hyper, losses: (int, nat) -> LossPair, interval: int, k: nat, p: Progress<E>)
  {
    && p.saved == CheckpointSchedule(lastEpoch, k, interval)
    && |p.coefs| == k
    && forall e :: 0 <= e < k ==> p.coefs[e] == EpochTrace(h, losses, lastEpoch + e)
  }

  lemma ReachedStep<E(!new)>(roll: Roller<E>, d: Rollout.Driver<E>, buf: Buffer, h: Hyper, k: nat,
                       p: Progress<E>, epoch: int, losses: nat -> LossPair, interval: int)
    requires Refills(roll)
    requires Reached(roll, d, buf, h, k, p)
    requires TrainsOn(h, buf.capacity)
    requires |NextProgress(roll, p, epoch, h, losses, interval).episodeRewards| > 0
    ensures Reached(roll, d, buf, h, k + 1, NextProgress(roll, p, epoch, h, losses, interval))
  {
    EpochRolloutFills(roll, p);
    if k == 0 {
      assert EpochRollout(roll, p) == roll(d, buf);
    }
  }

  lemma CountedStep<E(!new)>(roll: Roller<E>, d: Rollout.Driver<E>, buf: Buffer, h: Hyper, k: nat,
                       p: Progress<E>, epoch: int, losses: nat -> LossPair, interval: int)
    requires Refills(roll)
    requires p.buffer.capacity == buf.capacity
    requires Counted(d, buf, h, k, p)
    ensures Counted(d, buf, h, k + 1, NextProgress(roll, p, epoch, h, losses, interval))
  {
    EpochRolloutFills(roll, p);
  }

  lemma RecordedStep<E>(roll: Roller<E>, lastEpoch: int, h: Hyper, losses: (int, nat) -> LossPair, interval: int,
                        k: nat, p: Progress<E>)
    requires Recorded(lastEpoch, h, losses, interval, k, p)
    ensures Recorded(lastEpoch, h, losses, interval, k + 1,
                     NextProgress(roll, p, lastEpoch + k, h, EpochLosses(losses, lastEpoch + k), interval))
  {
    ScheduleSnoc(lastEpoch, k, interval);
    var q := NextProgress(roll, p, lastEpoch + k, h, EpochLosses(losses, lastEpoch + k), interval);
    assert q.saved == CheckpointSchedule(lastEpoch, k + 1, interval);
    assert q.coefs == p.coefs + [EpochTrace(h, losses, lastEpoch + k)];
    forall e | 0 <= e < k + 1
      ensures q.coefs[e] == EpochTrace(h, losses, lastEpoch + e)
    {
      if e < k {
        assert q.coefs[e] == p.coefs[e];
      }
    }
  }

  /** The whole record after `k` successful epochs. */
  ghost predicate Progressed<E>(roll: Roller<E>, d: Rollout.Driver<E>, buf: Buffer, lastEpoch: int, h: Hyper,
                                losses: (int, nat) -> LossPair, interval: int, k: nat, p: Progress<E>)
  {
    && Reached(roll, d, buf, h, k, p)
    && Counted(d, buf, h, k, p)
    && Recorded(lastEpoch, h, losses, interval, k, p)
  }

  /** A successful epoch extends the record by one epoch. */
  lemma ProgressStep<E(!new)>(roll: Roller<E>, d: Rollout.Driver<E>, buf: Buffer, lastEpoch: int, h: Hyper,
                        losses: (int, nat) -> LossPair, interval: int, k: nat, p: Progress<E>, q: Progress<E>)
    requires Refills(roll)
    requires Progressed(roll, d, buf, lastEpoch, h, losses, interval, k, p)
    requires TrainsOn(h, buf.capacity)
    requires q == NextProgress(roll, p, lastEpoch + k, h, EpochLosses(losses, lastEpoch + k), interval)
    requires |q.episodeRewards| > 0
    ensures Progressed(roll, d, buf, lastEpoch, h, losses, interval, k + 1, q)
  {
    ReachedStep(roll, d, buf, h, k, p, lastEpoch + k, EpochLosses(losses, lastEpoch + k), interval);
    CountedStep(roll, d, buf, h, k, p, lastEpoch + k, EpochLosses(losses, lastEpoch + k), interval);
    RecordedStep(roll, lastEpoch, h, losses, interval, k, p);
  }

  /** What the record of `k` successful epochs says: `k * sgd_iters` iterations, `k`
      buffers' worth of rollout steps, the generator, buffer and episode rewards that
      the `k` chained rollouts left, the checkpoints of the schedule, each epoch's
      coefficient trace restarting from the configured `vf_coef`, and, once an epoch
      has run, a full buffer and the rolling average of the recorded episodes. */
  lemma ProgressedMeans<E>(roll: Roller<E>, d: Rollout.Driver<E>, buf: Buffer, lastEpoch: int, h: Hyper,
                           losses: (int, nat) -> LossPair, interval: int, k: nat, p: Progress<E>)
    requires Progressed(roll, d, buf, lastEpoch, h, losses, interval, k, p)
    ensures p.trainIters == k * Iters(h.sgdIters)
    ensures p.driver.totalSteps == d.totalSteps + k * buf.capacity
    ensures p.driver == AfterRollouts(roll, d, buf, k).driver && p.buffer == AfterRollouts(roll, d, buf, k).buffer
    ensures p.episodeRewards == AfterRollouts(roll, d, buf, k).rewards
    ensures p.saved == CheckpointSchedule(lastEpoch, k, interval)
    ensures |p.coefs| == k
    ensures forall e :: 0 <= e < k ==> p.coefs[e] == EpochTrace(h, losses, lastEpoch + e)
    ensures k == 0 ==> p.average.None?
    ensures k > 0 ==> Len(p.buffer) == buf.capacity && |p.episodeRewards| > 0
    ensures k > 0 ==> p.average == Some(RollingAverage(p.episodeRewards).value)
  {
    RoundsIsProduct(k, Iters(h.sgdIters));
    RoundsIsProduct(k, buf.capacity);
  }

  /** The condition under which an epoch succeeds, after `k` successful ones. */
  lemma OnlyFirstEpochFails<E>(roll: Roller<E>, d: Rollout.Driver<E>, buf: Buffer, h: Hyper, k: nat, p: Progress<E>)
    requires Reached(roll, d, buf, h, k, p)
    ensures (TrainsOn(h, p.buffer.capacity) && |p.episodeRewards + Completed(EpochRollout(roll, p).outs)| > 0)
        <==> (k > 0 || (TrainsOn(h, buf.capacity) && FirstEpochCompletes(roll, d, buf)))
  {
    if k == 0 {
      assert EpochRollout(roll, p) == roll(d, buf);
    }
  }

  /** What an epoch after `k` successful ones ends in: only the first epoch can
      raise, and a successful epoch extends the record by one. The record is passed
      as one fact (compared with `true`) rather than clause by clause. */
  lemma EpochStep<E(!new)>(roll: Roller<E>, d: Rollout.Driver<E>, buf: Buffer, lastEpoch: int, h: Hyper,
                           losses: (int, nat) -> LossPair, interval: int, k: nat, p: Progress<E>,
                           r: Result<Progress<E>>)
    requires Refills(roll)
    requires Progressed(roll, d, buf, lastEpoch, h, losses, interval, k, p)
    requires r == EpochResult(roll, p, lastEpoch + k, h, EpochLosses(losses, lastEpoch + k), interval)
    ensures r.Ok? <==> (k > 0 || (TrainsOn(h, buf.capacity) && FirstEpochCompletes(roll, d, buf)))
    ensures r.Err? ==> r.error == FirstEpochFailure(h, buf.capacity)
    ensures r.Ok? ==> Progressed(roll, d, buf, lastEpoch, h, losses, interval, k + 1, r.value)
  {
    OnlyFirstEpochFails(roll, d, buf, h, k, p);
    EpochRolloutFills(roll, p);
    if r.Ok? {
      ProgressStep(roll, d, buf, lastEpoch, h, losses, interval, k, p, r.value);
    }
  }

  /** The first epoch of a run, from the empty record: it fails with
      `train_networks`' exception when the buffer cannot supply a batch, and with a
      division by zero when its rollout completes no episode. */
  method StartRun<E(!new)>(roll: Roller<E>, d: Rollout.Driver<E>, buf: Buffer, lastEpoch: int, h: Hyper,
                           V: (int, nat) -> (Vec -> real), losses: (int, nat) -> LossPair, interval: int)
    returns (r: Result<Progress<E>>)
    requires Refills(roll)
    ensures r.Ok? <==> TrainsOn(h, buf.capacity) && FirstEpochCompletes(roll, d, buf)
    ensures r.Err? ==> r.error == FirstEpochFailure(h, buf.capacity)
    ensures r.Ok? ==> Progressed(roll, d, buf, lastEpoch, h, losses, interval, 1, r.value)
  {
    var p := Progress(d, buf, 0, [], None, [], []);
    assert Progressed(roll, d, buf, lastEpoch, h, losses, interval, 0, p);
    r := RunEpoch(roll, p, lastEpoch, h, V, EpochLosses(losses, lastEpoch), interval);
    EpochStep(roll, d, buf, lastEpoch, h, losses, interval, 0, p, r);
  }

  /** An epoch after `k > 0` successful ones: it cannot fail, since the buffer is
      known to supply batches and some episode reward is on record. */
  method LaterEpoch<E(!new)>(roll: Roller<E>, d: Rollout.Driver<E>, buf: Buffer, lastEpoch: int, h: Hyper,
                             V: (int, nat) -> (Vec -> real), losses: (int, nat) -> LossPair, interval: int, k: nat, p: Progress<E>)
    returns (r: Result<Progress<E>>)
    requires Refills(roll)
    requires k > 0
    requires Progressed(roll, d, buf, lastEpoch, h, losses, interval, k, p)
    ensures r.Ok?
    ensures r.Ok? ==> Progressed(roll, d, buf, lastEpoch, h, losses, interval, k + 1, r.value)
  {
    r := RunEpoch(roll, p, lastEpoch + k, h, V, EpochLosses(losses, lastEpoch + k), interval);
    EpochStep(roll, d, buf, lastEpoch, h, losses, interval, k, p, r);
  }

  /** Epoch `lastEpoch + k` of a run whose first `k` epochs succeeded. Only the first
      epoch can fail: afterwards the buffer is known to supply batches and some
      episode reward is on record. Here and in `Train` the record is written
      `Progressed(...) == true`, so that the verifier carries it from call to loop as
      one fact instead of unfolding its conjuncts at each step. */
  method ContinueRun<E(!new)>(roll: Roller<E>, d: Rollout.Driver<E>, buf: Buffer, lastEpoch: int, h: Hyper,
                              V: (int, nat) -> (Vec -> real), losses: (int, nat) -> LossPair, interval: int, k: nat, p: Progress<E>)
    returns (r: Result<Progress<E>>)
    requires Refills(roll)
    requires Progressed(roll, d, buf, lastEpoch, h, losses, interval, k, p) == true
    ensures r.Ok? <==> (k > 0 || (TrainsOn(h, buf.capacity) && FirstEpochCompletes(roll, d, buf)))
    ensures r.Err? ==> r.error == FirstEpochFailure(h, buf.capacity)
    ensures r.Ok? ==> Progressed(roll, d, buf, lastEpoch, h, losses, interval, k + 1, r.value) == true
  {
    if k == 0 {
      assert p == Progress(d, buf, 0, [], None, [], []);
      r := StartRun(roll, d, buf, lastEpoch, h, V, losses, interval);
    } else {
      r := LaterEpoch(roll, d, buf, lastEpoch, h, V, losses, interval, k, p);
    }
  }

  /** The epoch loop of `train` over `range(last_epoch, last_epoch + epochs)`,
      starting from an empty record. It fails with `train_networks`' exception when
      the buffer cannot supply a batch, and with a division by zero when the first
      epoch completes no episode; otherwise every epoch extends the record.
      `losses(e, i)` are the losses of iteration `i` of epoch `e`, and `V(e, i)` the
      value network that iteration computes its targets with. */
  method Train<E(!new)>(
    roll: Roller<E>, d: Rollout.Driver<E>, buf: Buffer, lastEpoch: int, epochs: int,
    h: Hyper, V: (int, nat) -> (Vec -> real), losses: (int, nat) -> LossPair, interval: int)
    returns (r: Result<Progress<E>>)
    requires Refills(roll)
    ensures r.Ok? <==> (epochs <= 0 || (TrainsOn(h, buf.capacity) && FirstEpochCompletes(roll, d, buf)))
    ensures r.Err? ==> r.error == FirstEpochFailure(h, buf.capacity)
    ensures r.Ok? ==> Progressed(roll, d, buf, lastEpoch, h, losses, interval, Iters(epochs), r.value) == true
  {
    var n := Iters(epochs);
    var p := Progress(d, buf, 0, [], None, [], []);
    var k := 0;
    while k < n
      invariant 0 <= k <= n
      invariant Progressed(roll, d, buf, lastEpoch, h, losses, interval, k, p) == true
    {
      var next := ContinueRun(roll, d, buf, lastEpoch, h, V, losses, interval, k, p);
      if next.Err? {
        return Err(next.error);
      }
      p := next.value;
      k := k + 1;
    }
    return Ok(p);
  }

  /** `train` on the generator's rollout. */
  method TrainOnGenerator<E(!new)>(
    w: Rollout.World<E>, d: Rollout.Driver<E>, buf: Buffer, lastEpoch: int, epochs: int,
    h: Hyper, V: (int, nat) -> (Vec -> real), losses: (int, nat) -> LossPair, interval: int)
    returns (r: Result<Progress<E>>)
    ensures r.Ok? <==> (epochs <= 0 || (TrainsOn(h, buf.capacity) && FirstEpochCompletes(GeneratorRollout(w), d, buf)))
    ensures r.Err? ==> r.error == FirstEpochFailure(h, buf.capacity)
    ensures r.Ok? ==> Progressed(GeneratorRollout(w), d, buf, lastEpoch, h, losses, interval, Iters(epochs), r.value)
  {
    CollectRefills(w);
    r := Train(GeneratorRollout(w), d, buf, lastEpoch, epochs, h, V, losses, interval);
  }
}

=== FILE: wrappers.dfy ===
/** Failure-carrying results for the Python exceptions the modelled code raises. */
module Wrappers {

  /** A Python `None`-or-value. */
  datatype Option<+T> = None | Some(value: T)

  /** The exception classes the modelled code can raise, with their messages. */
  datatype Error =
    | ValueError(message: string)
    | AssertionError(message: string)
    | KeyError(key: string)
    | TypeError(message: string)
    | ZeroDivisionError(message: string)

  /** Either a value or the exception that the Python code would raise instead. */
  datatype Result<+T> = Ok(value: T) | Err(error: Error)
}
